=== FILE: README.md ===
# Student task manager client: a verified model of its logic

The client is a React single-page app over a task server. This model covers the logic it holds itself:

- **Dashboard.** A student's task list is filtered (All, Completed, Pending) and sorted with a comparator (Newest, Oldest, Priority). The page counts its tasks and reconciles the list after each successful server call: append on create, remove by id on delete, replace by id on toggle, shallow merge by id on edit.
- **Admin page.** The "add admin" modal validates its fields in a fixed order, keeps a notification and issues the creation request. The page also checks the stored token for admin rights and colours priority badges case-insensitively.
- **Create form.** It reads the user id from the stored token, validates the form, builds the posted payload and reacts to the reply.
- **Edit form.** It loads a task, normalises the loaded record for the form, edits it one field at a time, and sends it back.

## Layout

| file | module | contents |
|---|---|---|
| `wrappers.dfy` | `Wrappers` | `Option` |
| `strings.dfy` | `Strings` | JavaScript `trim`, `split`/`join` on one character, global one-character `replace`, ASCII `toLowerCase`, `length` in UTF-16 code units |
| `js.dfy` | `Js` | parsed JSON values, property access, truthiness, `\|\|` |
| `task_view.dfy` | `TaskView` | tasks, the filter, the comparator and its stable sort, the counters, the list rebuilds |
| `dashboard.dfy` | `Dashboard` | token decoding, the sign-in effect, badge colours, the in-place sort on an array, the page state as a class |
| `admin_panel.dfy` | `AdminPanel` | the admin validation chain, the add-admin modal as a class, the admin token check, the admin colours |
| `task_form.dfy` | `TaskForm` | user id from the token, validation, payload, the create modal as a class |
| `task_edit_form.dfy` | `TaskEditForm` | record normalisation, the edit modal as a class, the due-date round trip |

### State and sorting

- Page and modal state that the source updates through setters is a class whose methods state the entire new state. This covers `DashboardPage`, `AddAdminModal`, `TaskFormModal` and `TaskEditModal`.
- The task list is an `array<Task>`. Each successful call replaces the array, mirroring `setTasks` with a new array.
- `filteredAndSortedTasks` under the All filter sorts the live array itself, so `Dashboard.DashboardPage.FilteredAndSortedTasks` returns that very array sorted in place.
- The sort is an insertion sort (`Dashboard.SortInPlace`) proved equal to the specification function `TaskView.Sort`. That function is proved to be:
  - a permutation;
  - ordered by the comparator's key;
  - stable, as `Array.prototype.sort` must be from the 2019 edition of ECMA-262 on.

### External calls as parameters

- `atob`, `decodeURIComponent` and `JSON.parse` form a parameter `decode: string -> Option<Json>`. It yields `None` wherever the source's `try` would catch an exception.
- Server replies are parameters describing how each request settled.

## Model

| member | source | states |
|---|---|---|
| Strings.Trim | src/pages/AdminPanel.jsx:37 | the result is a slice of the string with only whitespace cut off on either side, and it neither starts nor ends with ECMAScript whitespace |
| Strings.TrimEmptyIff | src/pages/AdminPanel.jsx:37 | `!s.trim()` holds exactly when every character of `s` is whitespace |
| Strings.TrimIdempotent | src/components/TaskForm.jsx:90 | trimming a trimmed string changes nothing |
| Strings.Split | src/pages/Dashboard.jsx:23 | `split` on one character yields at least one piece |
| Strings.SplitPiecesFree | src/pages/Dashboard.jsx:23 | no piece of a split holds the separator |
| Strings.JoinSplit | src/pages/Dashboard.jsx:23 | joining the pieces of a split with the separator gives the string back |
| Strings.SplitJoin | src/pages/AdminPanel.jsx:244 | splitting the join of separator-free pieces gives exactly those pieces |
| Strings.SplitFirstPiece | src/components/TaskEditForm.jsx:40 | the first piece of `d + c + rest` is `d` when `d` holds no `c` |
| Strings.SplitFirstIsPrefix | src/components/TaskEditForm.jsx:40 | the first piece of a split is the prefix up to the first separator, or the whole string when it has none |
| Strings.ReplaceAll | src/pages/Dashboard.jsx:24 | global replacement changes exactly the occurrences of one character and keeps the length |
| Strings.ToLower | src/pages/AdminPanel.jsx:356 | each character is lower-cased on its own: `A`-`Z` become `a`-`z` and every other character stays |
| Strings.ToLowerChar | src/pages/AdminPanel.jsx:356 | an upper-case ASCII letter becomes the letter 32 code points on, in `a`-`z`; any other character stays |
| Strings.ToLowerIdempotent | src/pages/AdminPanel.jsx:356 | lower-casing twice is lower-casing once |
| Strings.Utf16Length | src/pages/AdminPanel.jsx:47 | `length` counts UTF-16 code units: at least one and at most two per character |
| Strings.Utf16LengthOfChar | src/pages/AdminPanel.jsx:47 | a single character counts two code units at or above U+10000 and one below |
| Strings.Utf16LengthAppend | src/pages/AdminPanel.jsx:47 | the `length` of a concatenation is the sum of the lengths, for all strings |
| Strings.Utf16LengthOfBmp | src/pages/AdminPanel.jsx:47 | for characters of the Basic Multilingual Plane, `length` is the number of characters |
| Js.Get | src/pages/Dashboard.jsx:43-46 | a property read is defined exactly for an object that has that own key, and yields its value |
| Js.Truthy | src/pages/Dashboard.jsx:39-41 | only a present value other than `null` can be truthy; arrays and objects always are, and a string is exactly when it is not empty |
| Js.Or | src/pages/Dashboard.jsx:46 | `a \|\| b` is `a` when `a` is truthy and `b` otherwise, so it is truthy exactly when one operand is |
| TaskView.Select | src/pages/Dashboard.jsx:143-146 | the filtered list is never longer than the list |
| TaskView.SelectMembers | src/pages/Dashboard.jsx:143-146 | the filter keeps exactly the tasks with the given `completed` value |
| TaskView.SelectAppend | src/pages/Dashboard.jsx:143-146 | filtering distributes over concatenation, so relative order is kept |
| TaskView.SelectPartition | src/pages/Dashboard.jsx:143-146 | the completed and pending selections split the list: their lengths sum to its length and their multisets to its multiset |
| TaskView.SelectIdempotent | src/pages/Dashboard.jsx:143-146 | filtering twice is filtering once |
| TaskView.Filtered | src/pages/Dashboard.jsx:139-147 | All is the list itself; Completed and Pending keep exactly the matching tasks |
| TaskView.FilteredPartition | src/pages/Dashboard.jsx:143-146 | the Completed and Pending views partition the list |
| TaskView.Rank | src/pages/Dashboard.jsx:156-157 | a known label has a rank from 1 to 3 |
| TaskView.RankedLabels | src/pages/Dashboard.jsx:156-157 | exactly `High`, `Med` and `Low` have a rank, and their ranks are 3, 2 and 1 |
| TaskView.Compare | src/pages/Dashboard.jsx:150-160 | each comparator is a difference of keys (`-dueDate`, `dueDate`, `-rank`), and 0 when a rank is missing (a `NaN` result counts as +0) |
| TaskView.CompareAntisymmetric | src/pages/Dashboard.jsx:150-160 | swapping the two tasks negates the comparator, in every order |
| TaskView.Insert | src/pages/Dashboard.jsx:150-160 | one insertion step of the stable sort adds one task; its order is stated by InsertPermutes, InsertOrdered and InsertStable |
| TaskView.Sort | src/pages/Dashboard.jsx:150-160 | the order `sort` produces keeps the length; permutation, key order and stability are the lemmas below |
| TaskView.InsertPermutes | src/pages/Dashboard.jsx:150-160 | one insertion step adds exactly the inserted task |
| TaskView.SortPermutes | src/pages/Dashboard.jsx:150-160 | the sort is a permutation of its input |
| TaskView.InsertOrdered | src/pages/Dashboard.jsx:150-160 | inserting a keyed task into a key-ordered list keeps it key-ordered |
| TaskView.SortOrdered | src/pages/Dashboard.jsx:150-160 | when every task has a key, the sorted list is ordered by key |
| TaskView.NewestIsNonIncreasing | src/pages/Dashboard.jsx:151-152 | Newest yields due dates that never increase |
| TaskView.OldestIsNonDecreasing | src/pages/Dashboard.jsx:153-154 | Oldest yields due dates that never decrease |
| TaskView.PriorityIsNonIncreasing | src/pages/Dashboard.jsx:155-157 | when every label is High, Med or Low, Priority yields ranks that never increase |
| TaskView.UnrankedComparesEqual | src/pages/Dashboard.jsx:155-157 | a task with any other label compares equal to every task, in both directions |
| TaskView.InsertStable | src/pages/Dashboard.jsx:150-160 | one insertion step keeps the relative order of tasks with equal keys |
| TaskView.SortIsStable | src/pages/Dashboard.jsx:150-160 | for every key, the tasks with that key appear in the sorted list in their original order |
| TaskView.SortOfOrdered | src/pages/Dashboard.jsx:150-160 | a list already ordered by key is left as it is |
| TaskView.View | src/pages/Dashboard.jsx:139-162 | the view is a permutation of the filtered list |
| TaskView.ViewIdempotent | src/pages/Dashboard.jsx:139-162 | when every task has a key, recomputing the view of a view changes nothing |
| TaskView.GetStats | src/pages/Dashboard.jsx:165-170 | total is the list length, completed and pending count the matching tasks, and they sum to total |
| TaskView.Appended | src/pages/Dashboard.jsx:95 | creation keeps the old list as a prefix and puts the new task last |
| TaskView.StatsAfterCreate | src/pages/Dashboard.jsx:95 | creating a task adds one to total and one to completed or pending, by its status |
| TaskView.RemoveById | src/pages/Dashboard.jsx:109 | the tasks kept are exactly those with another id |
| TaskView.RemoveByIdAppend | src/pages/Dashboard.jsx:109 | removal distributes over concatenation, so the kept tasks stay in order |
| TaskView.RemoveAbsentId | src/pages/Dashboard.jsx:109 | removing an id no task has leaves the list unchanged |
| TaskView.ReplaceById | src/pages/Dashboard.jsx:133 | the length is kept, each entry with the id becomes the server's task, and the others stay |
| TaskView.Merge | src/pages/Dashboard.jsx:220 | each field of the merge is the edited value where given, and the old value otherwise |
| TaskView.MergeLaws | src/pages/Dashboard.jsx:220 | merging the same edit twice is merging once, and an empty edit is the identity |
| TaskView.MergeById | src/pages/Dashboard.jsx:220 | the length is kept, each entry with the id is merged with the edit, and the others stay |
| TaskView.ReplaceThenRemove | src/pages/Dashboard.jsx:133 | deleting after toggling the same id equals deleting alone |
| TaskView.MergeThenRemove | src/pages/Dashboard.jsx:220 | deleting after an edit that keeps the id equals deleting alone |
| Dashboard.Base64UrlToBase64 | src/pages/Dashboard.jsx:24 | `-` becomes `+`, `_` becomes `/`, and every other character stays |
| Dashboard.Base64UrlRoundTrip | src/pages/Dashboard.jsx:24 | for base64url text, the mapping is undone by the opposite one and leaves no `-` or `_` |
| Dashboard.DecodeToken | src/pages/Dashboard.jsx:21-33 | a token with no second segment yields `None` |
| Dashboard.DecodeTokenReadsPayload | src/pages/Dashboard.jsx:23-28 | a token joined from dot-free segments decodes exactly its second segment, mapped to base64 |
| Dashboard.DecodeTokenNeedsTwoSegments | src/pages/Dashboard.jsx:23-24 | a token without a `.` does not decode |
| Dashboard.LoadSession | src/pages/Dashboard.jsx:35-62 | a missing or empty token redirects with the no-token message, and a token whose payload is falsy with the invalid-token message; otherwise the user signs in, with `id`, `name` and `email` read from the payload and `isAdmin` its value when truthy and `false` otherwise |
| Dashboard.SignInFromToken | src/pages/Dashboard.jsx:39-51 | conversely, a token of dot-free segments whose payload decodes to a truthy value signs in, with the payload's `id` |
| Dashboard.PriorityColor | src/pages/Dashboard.jsx:172-179 | `High` (rank 3) is red, `Med` (rank 2) yellow, `Low` (rank 1) green, and every unranked label grey |
| Dashboard.CreateFormLabelsUnranked | src/components/TaskForm.jsx:232-234 | the create form's labels `high`, `medium` and `low` have no rank and are grey on the dashboard; `High`, `Med` and `Low` are ranked and coloured |
| Dashboard.InsertInPlace | src/pages/Dashboard.jsx:150 | shifting `a[i]` left into the prefix yields the specification's insertion and leaves the suffix alone |
| Dashboard.ShiftRight | src/pages/Dashboard.jsx:150 | the inner loop stops at a gap where the task before it does not sort after `x`, with the shifted entries in place and the rest of the array unchanged |
| Dashboard.SortInPlace | src/pages/Dashboard.jsx:150-160 | the array afterwards holds the stable sort of its old contents |
| Dashboard.DashboardPage.constructor | src/pages/Dashboard.jsx:9-17 | the initial state: no tasks, loading, filter All, sort Newest, both modals closed |
| Dashboard.DashboardPage.Stats | src/pages/Dashboard.jsx:165-170 | total is the stored array's length, and completed and pending count its tasks with each flag, whatever the filter |
| Dashboard.DashboardPage.FetchTasks | src/pages/Dashboard.jsx:64-91 | on success the list is the reply's and the error is empty; on failure the list stays and the error is `Failed to fetch tasks: ` and the cause; loading ends false |
| Dashboard.DashboardPage.HandleTaskCreated | src/pages/Dashboard.jsx:94-97 | the task is appended and the create modal closes; nothing else changes |
| Dashboard.DashboardPage.HandleDeleteTask | src/pages/Dashboard.jsx:99-117 | on OK the tasks with the id are removed; otherwise the list is unchanged |
| Dashboard.DashboardPage.HandleCompletedTask | src/pages/Dashboard.jsx:120-137 | on OK the entries with the id become the server's task; otherwise the list is unchanged |
| Dashboard.DashboardPage.HandleEditClick | src/pages/Dashboard.jsx:214-217 | the task to edit is remembered and the edit modal opens |
| Dashboard.DashboardPage.HandleTaskUpdated | src/pages/Dashboard.jsx:219-224 | the edit is merged over the entries with the id, the edit modal closes and the remembered task is cleared |
| Dashboard.DashboardPage.HandleCloseEditModal | src/pages/Dashboard.jsx:226-229 | the edit modal closes and the remembered task is cleared |
| Dashboard.DashboardPage.FilteredAndSortedTasks | src/pages/Dashboard.jsx:139-163 | the result is the view of the old list; under All it is the stored array itself, permuted in place; otherwise a new array, and the stored list is untouched |
| AdminPanel.ValidateAdminForm | src/pages/AdminPanel.jsx:37-50 | the form passes exactly when all four fields are non-blank, the passwords are equal and the untrimmed password is at least 6 UTF-16 code units long; filled, equal but shorter passwords give "Password must be at least 6 characters long" |
| AdminPanel.BlankFieldReportedFirst | src/pages/AdminPanel.jsx:37-40 | a field of only whitespace gives "Please fill in all fields", whatever the rest |
| AdminPanel.MismatchReportedBeforeLength | src/pages/AdminPanel.jsx:42-45 | with all fields filled, different passwords give "Passwords do not match", even when short |
| AdminPanel.LengthCountsSurroundingSpaces | src/pages/AdminPanel.jsx:47-50 | the length rule counts surrounding spaces: two non-blank characters padded to six pass |
| AdminPanel.SurrogatePairsCountTwice | src/pages/AdminPanel.jsx:47 | three characters outside the Basic Multilingual Plane make a long enough password |
| AdminPanel.FailureText | src/pages/AdminPanel.jsx:71-85 | a failed reply shows its message, or "Registration failed" when it has none; a thrown error shows its own message |
| AdminPanel.AddAdminModal.constructor | src/pages/AdminPanel.jsx:8-13 | empty fields, not loading, notification hidden |
| AdminPanel.AddAdminModal.Edit | src/pages/AdminPanel.jsx:141-186 | one field takes the typed value; nothing else changes |
| AdminPanel.AddAdminModal.ShowNotification | src/pages/AdminPanel.jsx:15-16 | the notification is shown with the message, and the type defaults to `info` |
| AdminPanel.AddAdminModal.NotificationExpired | src/pages/AdminPanel.jsx:17-19 | the timer hides the notification and changes nothing else |
| AdminPanel.AddAdminModal.ResetForm | src/pages/AdminPanel.jsx:22-28 | all four fields become empty and the notification is hidden |
| AdminPanel.AddAdminModal.HandleClose | src/pages/AdminPanel.jsx:30-33 | closing resets the form, hides the notification and then asks the parent to close (`onClose`) |
| AdminPanel.AddAdminModal.SendRegistration | src/pages/AdminPanel.jsx:52-88 | the untrimmed fields are sent; an OK reply shows the success message, anything else `Error: ` and its text; loading ends false and the fields stay |
| AdminPanel.AddAdminModal.HandleRegister | src/pages/AdminPanel.jsx:35-89 | a request with the untrimmed fields is issued exactly when validation passes; otherwise the validation message is shown as an error and loading is untouched; after a request, loading is false and the notification is the success message or `Error: ` and the failure text |
| AdminPanel.GetAdminFromToken | src/pages/AdminPanel.jsx:239-253 | a result needs a three-segment token whose second segment decodes to a payload, other than `null`, with a truthy `isAdmin`; the result is that payload |
| AdminPanel.AdminTokenAccepted | src/pages/AdminPanel.jsx:244-248 | conversely, such a token is accepted and yields its payload |
| AdminPanel.AdminTokenNeedsThreeSegments | src/pages/AdminPanel.jsx:244-245 | a token of two or four segments is refused |
| AdminPanel.AdminPriorityColor | src/pages/AdminPanel.jsx:355-362 | a label is coloured exactly when its lower-case form is `high`, `medium` or `low`; a missing one is grey |
| AdminPanel.AdminColorIgnoresCase | src/pages/AdminPanel.jsx:356 | the colour does not depend on letter case |
| AdminPanel.AdminColorCreateLabels | src/components/TaskForm.jsx:232-234 | the create form's labels `high`, `medium` and `low` are coloured red, yellow and green |
| AdminPanel.AdminColorEditLabels | src/components/TaskEditForm.jsx:168-170 | of the edit form's labels, `High` and `Low` are coloured, but `Med` is grey |
| TaskForm.ClaimedUserId | src/components/TaskForm.jsx:32 | the claim is the first truthy one of `userId`, `id` and `user_id`, and `None` when none is |
| TaskForm.GetUserIdFromToken | src/components/TaskForm.jsx:17-37 | a result is truthy and needs a three-segment token whose payload decodes, is not `null` and carries a claim |
| TaskForm.UserIdFromWellFormedToken | src/components/TaskForm.jsx:25-32 | conversely, such a token yields the payload's claim |
| TaskForm.WithField | src/components/TaskForm.jsx:62-67 | only the named field changes |
| TaskForm.ValidateTask | src/components/TaskForm.jsx:74-82 | a blank title is reported first, then a missing user id; it passes exactly when neither applies |
| TaskForm.IsIsoDate | src/components/TaskForm.jsx:94 | a date that `toISOString` accepts is ten characters long and holds no `T`; it names a real calendar day (month 01 to 12, day within the month, February 29 only in Gregorian leap years) |
| TaskForm.DaysInMonth | src/components/TaskForm.jsx:94 | February has 29 days in a leap year and 28 otherwise; April, June, September and November have 30; every other month has 31 |
| TaskForm.LeapYearDigitsIsGregorian | src/components/TaskForm.jsx:94 | the leap-year test `IsIsoDate` reads off the year's digits is the Gregorian rule (divisible by 4, and centuries only when divisible by 400) on the year they spell |
| TaskForm.CenturyRule | src/components/TaskForm.jsx:94 | the year `100c + y` is a leap year exactly when `c` is divisible by 4 (for `y = 0`) or `y` is (otherwise) |
| TaskForm.FebruaryOverflowRejected | src/components/TaskForm.jsx:94 | `2025-02-30` and `2025-02-29` name no day and are rejected |
| TaskForm.LeapDayFollowsGregorianRule | src/components/TaskForm.jsx:94 | February 29 is accepted in 2024 and 2000 and rejected in 1900 |
| TaskForm.DefaultDueDateAccepted | src/components/TaskForm.jsx:5-10 | the form's default due date `2025-07-15` is accepted |
| TaskForm.BuildPayload | src/components/TaskForm.jsx:89-96 | the payload has the trimmed title and description, `completed` false, the priority and user id as given, and the date followed by `T10:00:00.000Z`; it exists exactly for a date naming a real calendar day |
| TaskForm.PayloadTitleIsTrimmed | src/components/TaskForm.jsx:89-90 | after validation the posted title is not empty and is already trimmed |
| TaskForm.PayloadKeepsPickedDate | src/components/TaskForm.jsx:94 | the part of the posted due date before `T` is the picked date |
| TaskForm.FailureText | src/components/TaskForm.jsx:108-124 | a response that is not OK reads `HTTP error! status: ` and the status; a thrown error gives its message |
| TaskForm.TaskFormModal.constructor | src/components/TaskForm.jsx:40-47 | the user id is read once from the token, and the authentication message is set exactly when there is none |
| TaskForm.TaskFormModal.Open | src/components/TaskForm.jsx:50-60 | opening resets the form to its defaults and clears every error |
| TaskForm.TaskFormModal.HandleInputChange | src/components/TaskForm.jsx:62-70 | only the named field changes, and a shown error is cleared |
| TaskForm.TaskFormModal.SendTask | src/components/TaskForm.jsx:84-127 | the built payload is sent; an invalid date gives "Failed to create task: Invalid time value"; a success hands over the reply's task and closes; a failure shows "Failed to create task: " and its text; loading ends false |
| TaskForm.TaskFormModal.HandleTaskSubmit | src/components/TaskForm.jsx:73-128 | a failed check sets its message and sends nothing; otherwise the built payload is sent, the parent gets the reply's task only when there is one, the modal closes only on success, and a failure reads `Failed to create task: ` and its cause |
| TaskForm.TaskFormModal.HandleCancel | src/components/TaskForm.jsx:130-139 | cancelling resets the form to its defaults, clears the error and asks the parent to close (`onClose`) |
| TaskEditForm.Unwrap | src/components/TaskEditForm.jsx:36 | the body's `task` when truthy, else the body itself |
| TaskEditForm.Fields | src/components/TaskEditForm.jsx:39 | spreading copies exactly an object's own properties |
| TaskEditForm.ShouldFetch | src/components/TaskEditForm.jsx:16 | a fetch happens exactly when the modal is open and the task id is truthy |
| TaskEditForm.DateOnly | src/components/TaskEditForm.jsx:40 | a missing or `null` date gives "", and a string gives its prefix up to the first `T` (itself when it has none); any other value throws |
| TaskEditForm.Normalise | src/components/TaskEditForm.jsx:36-41 | loading succeeds exactly for a non-`null` body whose due date can be cut; the record then has every loaded property but `dueDate` unchanged, and `dueDate` is the cut date |
| TaskEditForm.NormaliseIdempotent | src/components/TaskEditForm.jsx:36-41 | loading an already loaded record gives it back |
| TaskEditForm.CreatedDateRoundTrip | src/components/TaskEditForm.jsx:40 | a date posted by the create form loads back as the date that was picked |
| TaskEditForm.TaskEditModal.constructor | src/components/TaskEditForm.jsx:5-12 | the blank record (priority `Low`), not loading, no error |
| TaskEditForm.TaskEditModal.FetchTask | src/components/TaskEditForm.jsx:21-49 | a body that normalises becomes the record with no error; otherwise the record stays and the error is "Could not load task."; loading ends false |
| TaskEditForm.TaskEditModal.Sync | src/components/TaskEditForm.jsx:15-19 | a fetch happens exactly when the modal is open with a truthy task id; otherwise nothing changes |
| TaskEditForm.TaskEditModal.HandleChange | src/components/TaskEditForm.jsx:51-53 | only the named property changes |
| TaskEditForm.TaskEditModal.HandleSubmit | src/components/TaskEditForm.jsx:55-80 | the whole record is sent; on OK the parent gets exactly that record, and the modal asks to close (`onClose`); otherwise the error is "Failed to update task.", the parent gets nothing and the modal stays open |
| TaskEditForm.TaskEditModal.HandleClose | src/components/TaskEditForm.jsx:82-91 | back to the blank record with no error, then asks the parent to close (`onClose`) |

## Left out

- Network and browser calls are not modelled; each becomes a parameter holding the call's outcome. This covers every `fetch`, the HTTP status, `localStorage`, `navigate`, `toast`, `alert`, and the admin page's own data loading (users, tasks, statistics).
- `atob`, `decodeURIComponent`, `JSON.parse` and `jwtDecode` are not modelled; they are the `decode` parameter. The Dashboard maps the base64url alphabet before decoding, while the admin page and the create form do not. Each module passes its segment to `decode` accordingly.
- Date parsing and formatting are out of scope. Task due dates are integer timestamps, and the sort compares them directly instead of through `new Date`.
- Timers and concurrency are out of scope. A timer firing is its own method (`NotificationExpired`); the success timer of `handleRegister` is the same reset as `ResetForm`, followed by the optional `onSuccess` callback and then `onClose`; the callbacks belong to the parent and are not modelled. Stale closures and interleaved replies are not modelled: each handler runs to completion on the state it reads.
- Rendering, CSS class strings and the delete confirmation dialog are not modelled. Only the priority-to-colour decision is kept.
- TaskView.Sort: fixes one stable order. For Priority with a label outside High/Med/Low, the comparator is inconsistent: an unranked task ties with `High` and `Low` alike. ECMA-262 then leaves the order implementation-defined. The ordering lemmas only assume ranked labels; for other labels, the permutation and stability lemmas describe this model, not every engine.
- Js.Json: numbers are integers, so a `NaN` or fractional value is not representable.
- Strings.ToLower: folds only the ASCII letters, not the full Unicode case mapping of `toLowerCase`.
- TaskEditForm.Fields: spreading a string or array response, which would copy its index properties, copies nothing here.
- TaskForm.BuildPayload: a day past the month's end (`2025-02-30`) fails, as in the engines whose date parser rejects it; V8 instead rolls it over to the next month (`2025-03-02`), and that behaviour is not modelled. A `type="date"` input never produces such a value.
- TaskForm.BuildPayload: an invalid date fails with `Invalid time value`, the wording of one engine's `RangeError`.
- Dashboard.DashboardPage.HandleTaskUpdated: takes the edit as a `Patch` of task fields. The edit form's record holds its date as a date string, and turning that into a timestamp needs the Date parsing left out above.
- Dashboard.DashboardPage.FetchTasks: takes the reply as the list itself, so the `data.tasks || data` unwrapping is not modelled.
- Dashboard.DashboardPage.HandleCompletedTask: takes a reply that carries a task. A body without `task`, which would put `undefined` into the list, is not modelled.
- AdminPanel.FailureText: takes the body's `message` as a string, with "" for a missing one. `new Error` would convert other values to text.
- Dashboard.LoadSession: returns the session. The `fetchTasks` call it starts is the separate method `FetchTasks`.

=== FILE: admin_panel.dfy ===
/** The admin page: the "add admin" modal (its validation chain, its form
    fields and notification, and the request it issues), the admin check on the
    stored token, and the admin badge colours. */
module AdminPanel {
  import opened Wrappers
  import opened Strings
  import opened Js
  import opened TaskView

  // ------------------------------------------------------------- validation

  const FillAllFields := "Please fill in all fields"
  const PasswordsDiffer := "Passwords do not match"
  const PasswordTooShort := "Password must be at least 6 characters long"
  const MinPasswordLength := 6

  predicate Blank(s: string) {
    Trim(s) == ""
  }

  /** The checks of `handleRegister`, in order; `None` means all passed. The
      length is the untrimmed password's, in UTF-16 code units. */
  function ValidateAdminForm(name: string, email: string, password: string, confirmPassword: string)
    : (r: Option<string>)
    ensures r.None? <==>
              && !Blank(name) && !Blank(email) && !Blank(password) && !Blank(confirmPassword)
              && password == confirmPassword && Utf16Length(password) >= MinPasswordLength
    ensures r.Some? ==> r.value in {FillAllFields, PasswordsDiffer, PasswordTooShort}
    ensures (&& !Blank(name) && !Blank(email) && !Blank(password) && !Blank(confirmPassword)
             && password == confirmPassword && Utf16Length(password) < MinPasswordLength)
            ==> r == Some(PasswordTooShort)
  {
    if Blank(name) || Blank(email) || Blank(password) || Blank(confirmPassword) then Some(FillAllFields)
    else if password != confirmPassword then Some(PasswordsDiffer)
    else if Utf16Length(password) < MinPasswordLength then Some(PasswordTooShort)
    else None
  }

  /** A blank field is reported before anything else, whatever the other
      fields hold. */
  lemma BlankFieldReportedFirst(name: string, email: string, password: string, confirmPassword: string)
    requires AllWhitespace(name) || AllWhitespace(email) || AllWhitespace(password) || AllWhitespace(confirmPassword)
    ensures ValidateAdminForm(name, email, password, confirmPassword) == Some(FillAllFields)
  {
    TrimEmptyIff(name);
    TrimEmptyIff(email);
    TrimEmptyIff(password);
    TrimEmptyIff(confirmPassword);
  }

  /** With every field filled in, a mismatch is reported before the length,
      even for a short password. */
  lemma MismatchReportedBeforeLength(name: string, email: string, password: string, confirmPassword: string)
    requires !Blank(name) && !Blank(email) && !Blank(password) && !Blank(confirmPassword)
    requires password != confirmPassword
    ensures ValidateAdminForm(name, email, password, confirmPassword) == Some(PasswordsDiffer)
  {
  }

  /** The length rule counts the untrimmed password: two spaces on each side
      of any two characters, at least one of them not blank, make up the
      six. */
  lemma LengthCountsSurroundingSpaces(name: string, email: string, core: string)
    requires !Blank(name) && !Blank(email)
    requires |core| >= 2 && !AllWhitespace(core)
    ensures ValidateAdminForm(name, email, "  " + core + "  ", "  " + core + "  ") == None
  {
    var padded := "  " + core + "  ";
    var i :| 0 <= i < |core| && !IsWhitespace(core[i]);
    assert padded[i + 2] == core[i];
    TrimEmptyIff(padded);
  }

  /** The length is counted in UTF-16 code units: three characters outside the
      Basic Multilingual Plane already make up the six. */
  lemma SurrogatePairsCountTwice(name: string, email: string)
    requires !Blank(name) && !Blank(email)
    ensures ValidateAdminForm(name, email, "\U{1F600}\U{1F600}\U{1F600}", "\U{1F600}\U{1F600}\U{1F600}") == None
  {
    var p := "\U{1F600}\U{1F600}\U{1F600}";
    assert p[1..][1..][1..] == [];
    assert Utf16Length(p) == 6;
    TrimEmptyIff(p);
    assert !IsWhitespace(p[0]);
  }

  // ------------------------------------------------------------ modal state

  datatype Notification = Notification(show: bool, message: string, kind: string)

  const Hidden := Notification(false, "", "")
  const CreatedMessage := "Admin account created successfully!"

  /** The body sent to `/admin/createAdmin`. */
  datatype CreateAdminRequest = CreateAdminRequest(
    adminName: string, adminEmail: string, adminPassword: string, confirmPassword: string)

  /** How the request settled: a response with its `ok` flag and its body's
      `message` (`""` when absent), or an exception from `fetch` or from
      reading the body. */
  datatype AdminReply =
    | Replied(ok: bool, message: string)
    | Thrown(message: string)

  /** The text after `Error: ` that a failed request shows. */
  function FailureText(reply: AdminReply): (t: string)
    requires !(reply.Replied? && reply.ok)
    ensures reply.Replied? && reply.message == "" ==> t == "Registration failed"
    ensures reply.Thrown? || reply.message != "" ==> t == reply.message
  {
    match reply
    case Replied(_, m) => if m != "" then m else "Registration failed"
    case Thrown(m) => m
  }

  datatype AdminField = Name | Email | Password | ConfirmPassword

  class AddAdminModal {
    var name: string
    var email: string
    var password: string
    var confirmPassword: string
    var isLoading: bool
    var notification: Notification

    constructor ()
      ensures name == "" && email == "" && password == "" && confirmPassword == ""
      ensures !isLoading && notification == Hidden
    {
      name, email, password, confirmPassword := "", "", "", "";
      isLoading := false;
      notification := Hidden;
    }

    /** The input handlers: one field takes the typed value. */
    method Edit(field: AdminField, value: string)
      modifies this
      ensures name == (if field == Name then value else old(name))
      ensures email == (if field == Email then value else old(email))
      ensures password == (if field == Password then value else old(password))
      ensures confirmPassword == (if field == ConfirmPassword then value else old(confirmPassword))
      ensures isLoading == old(isLoading) && notification == old(notification)
    {
      match field
      case Name => name := value;
      case Email => email := value;
      case Password => password := value;
      case ConfirmPassword => confirmPassword := value;
    }

    /** `showNotification`; the type defaults to `info` when not given. */
    method ShowNotification(message: string, kind: Option<string>)
      modifies this
      ensures notification == Notification(true, message, kind.GetOr("info"))
      ensures name == old(name) && email == old(email) && password == old(password)
      ensures confirmPassword == old(confirmPassword) && isLoading == old(isLoading)
    {
      notification := Notification(true, message, kind.GetOr("info"));
    }

    /** What the notification timer does when it fires. */
    method NotificationExpired()
      modifies this
      ensures notification == Hidden
      ensures name == old(name) && email == old(email) && password == old(password)
      ensures confirmPassword == old(confirmPassword) && isLoading == old(isLoading)
    {
      notification := Hidden;
    }

    /** `resetForm`: all four fields emptied and the notification hidden. */
    method ResetForm()
      modifies this
      ensures name == "" && email == "" && password == "" && confirmPassword == ""
      ensures notification == Hidden && isLoading == old(isLoading)
    {
      name, email, password, confirmPassword := "", "", "", "";
      notification := Hidden;
    }

    /** `handleClose`: the form is reset before the modal asks its
        parent to close it (`close`, the call to `onClose`). */
    method HandleClose() returns (close: bool)
      modifies this
      ensures name == "" && email == "" && password == "" && confirmPassword == ""
      ensures notification == Hidden && isLoading == old(isLoading) && close
    {
      ResetForm();
      close := true;
    }

    /** The request part of `handleRegister` (its `try`, `catch` and
        `finally`): the untrimmed fields are sent, the reply decides the
        notification, and loading ends whatever happened. */
    method SendRegistration(reply: AdminReply) returns (request: CreateAdminRequest)
      modifies this
      ensures request == CreateAdminRequest(name, email, password, confirmPassword)
      ensures !isLoading
      ensures reply.Replied? && reply.ok ==> notification == Notification(true, CreatedMessage, "success")
      ensures !(reply.Replied? && reply.ok) ==>
                notification == Notification(true, "Error: " + FailureText(reply), "error")
      ensures name == old(name) && email == old(email) && password == old(password)
      ensures confirmPassword == old(confirmPassword)
    {
      isLoading := true;
      request := CreateAdminRequest(name, email, password, confirmPassword);
      if reply.Replied? && reply.ok {
        ShowNotification(CreatedMessage, Some("success"));
      } else {
        ShowNotification("Error: " + FailureText(reply), Some("error"));
      }
      isLoading := false;
    }

    /** `handleRegister`. A validation failure shows its message and sends
      nothing; otherwise the untrimmed fields are sent and the reply decides
      the notification. The form is never cleared here. */
    method HandleRegister(reply: AdminReply) returns (request: Option<CreateAdminRequest>)
      modifies this
      ensures request.Some? <==> ValidateAdminForm(name, email, password, confirmPassword).None?
      ensures request.Some? ==> request.value == CreateAdminRequest(name, email, password, confirmPassword)
      ensures request.None? ==>
                (isLoading == old(isLoading) &&
                 notification == Notification(true, ValidateAdminForm(name, email, password, confirmPassword).value, "error"))
      ensures request.Some? ==> !isLoading
      ensures request.Some? && reply.Replied? && reply.ok ==>
                notification == Notification(true, CreatedMessage, "success")
      ensures request.Some? && !(reply.Replied? && reply.ok) ==>
                notification == Notification(true, "Error: " + FailureText(reply), "error")
      ensures name == old(name) && email == old(email) && password == old(password)
      ensures confirmPassword == old(confirmPassword)
    {
      var invalid := ValidateAdminForm(name, email, password, confirmPassword);
      if invalid.Some? {
        ShowNotification(invalid.value, Some("error"));
        return None;
      }
      var sent := SendRegistration(reply);
      request := Some(sent);
    }
  }

  // ------------------------------------------------------------ admin token

  /** `getAdminFromToken`: no (or an empty) token, a token that is not three
      `.`-separated segments, a payload that does not decode or is `null`, and
      a payload whose `isAdmin` is falsy all give `None`; otherwise the payload.
      `decode` stands for `JSON.parse(atob(segment))` and yields `None` when
      either throws; the segment is passed to it as it is. */
  function GetAdminFromToken(token: Option<string>, decode: string -> Option<Json>): (r: Option<Json>)
    ensures r.Some? ==> token.Some? && |Split(token.value, '.')| == 3
    ensures r.Some? ==> r == decode(Split(token.value, '.')[1])
    ensures r.Some? ==> r.value != JNull && Truthy(Get(r.value, "isAdmin"))
  {
    if token.None? || token.value == "" then None
    else
      var parts := Split(token.value, '.');
      if |parts| != 3 then None
      else
        var payload := decode(parts[1]);
        if payload.None? || payload.value == JNull then None
        else if Truthy(Get(payload.value, "isAdmin")) then payload
        else None
  }

  /** Conversely, a three-segment token whose payload decodes to a value with
      a truthy `isAdmin` is accepted. */
  lemma AdminTokenAccepted(header: string, payload: string, signature: string,
                           decode: string -> Option<Json>)
    requires '.' !in header && '.' !in payload && '.' !in signature
    requires decode(payload).Some? && decode(payload).value != JNull
    requires Truthy(Get(decode(payload).value, "isAdmin"))
    ensures GetAdminFromToken(Some(Join([header, payload, signature], '.')), decode) == decode(payload)
  {
    SplitJoin([header, payload, signature], '.');
  }

  /** A token of two or of four segments is refused whatever its payload. */
  lemma AdminTokenNeedsThreeSegments(segments: seq<string>, decode: string -> Option<Json>)
    requires |segments| == 2 || |segments| == 4
    requires forall k :: 0 <= k < |segments| ==> '.' !in segments[k]
    ensures GetAdminFromToken(Some(Join(segments, '.')), decode) == None
  {
    SplitJoin(segments, '.');
  }

  // ---------------------------------------------------------------- colours

  /** `getPriorityColor` on the admin page: the label is lower-cased and
      compared with `high`, `medium` and `low`; a missing label is grey. */
  function AdminPriorityColor(priority: Option<string>): (c: Colour)
    ensures c != Gray <==> priority.Some? && ToLower(priority.value) in {"high", "medium", "low"}
  {
    if priority.None? then Gray
    else
      match ToLower(priority.value)
      case "high" => Red
      case "medium" => Yellow
      case "low" => Green
      case _ => Gray
  }

  /** The colour does not depend on letter case. */
  lemma AdminColorIgnoresCase(p: string)
    ensures AdminPriorityColor(Some(p)) == AdminPriorityColor(Some(ToLower(p)))
  {
    ToLowerIdempotent(p);
  }

  /** The create form's three labels are all coloured here. */
  lemma AdminColorCreateLabels()
    ensures AdminPriorityColor(Some("high")) == Red && AdminPriorityColor(Some("medium")) == Yellow
    ensures AdminPriorityColor(Some("low")) == Green
  {
    assert ToLower("high") == "high";
    assert ToLower("medium") == "medium";
    assert ToLower("low") == "low";
  }

  /** Of the edit form's labels, `High` and `Low` are coloured here but `Med`
      is not: it falls to grey. */
  lemma AdminColorEditLabels()
    ensures AdminPriorityColor(Some("High")) == Red && AdminPriorityColor(Some("Low")) == Green
    ensures AdminPriorityColor(Some("Med")) == Gray
  {
    assert ToLower("High") == "high";
    assert ToLower("Low") == "low";
    assert ToLower("Med") == "med";
  }
}

=== FILE: dashboard.dfy ===
/** The dashboard page: the token decoding it signs in with, the priority
    badge colours, and the page state — the live task array that the view sorts
    in place and that each successful call replaces. */
module Dashboard {
  import opened Wrappers
  import opened Strings
  import opened Js
  import opened TaskView

  // --------------------------------------------------------- token decoding

  /** The two `replace` calls of `decodeToken`: the base64url alphabet
      (section 5 of RFC 4648) mapped to the base64 one (section 4). */
  function Base64UrlToBase64(s: string): (r: string)
    ensures |r| == |s|
    ensures forall i :: 0 <= i < |s| ==>
              r[i] == (if s[i] == '-' then '+' else if s[i] == '_' then '/' else s[i])
  {
    ReplaceAll(ReplaceAll(s, '-', '+'), '_', '/')
  }

  /** The opposite mapping, from base64 back to base64url. */
  function Base64ToBase64Url(s: string): string {
    ReplaceAll(ReplaceAll(s, '+', '-'), '/', '_')
  }

  /** A base64url text holds neither `+` nor `/`, and the mapping is
      undone by the opposite one; the mapped text holds neither `-` nor `_`. */
  lemma Base64UrlRoundTrip(s: string)
    requires forall i :: 0 <= i < |s| ==> s[i] != '+' && s[i] != '/'
    ensures Base64ToBase64Url(Base64UrlToBase64(s)) == s
    ensures forall i :: 0 <= i < |s| ==> Base64UrlToBase64(s)[i] != '-' && Base64UrlToBase64(s)[i] != '_'
  {
    var r := Base64ToBase64Url(Base64UrlToBase64(s));
    assert forall i :: 0 <= i < |s| ==> r[i] == s[i];
  }

  /** `decodeToken`: the second `.`-separated segment (section 7.1 of
      RFC 7515), mapped to base64 and handed to `decode`, which stands for
      `atob`, the percent-decoding and `JSON.parse` together and yields `None`
      whenever any of them throws. A token with no second segment throws on
      `undefined.replace` and so yields `None` as well. */
  function DecodeToken(token: string, decode: string -> Option<Json>): (r: Option<Json>)
    ensures |Split(token, '.')| < 2 ==> r == None
  {
    var parts := Split(token, '.');
    if |parts| < 2 then None else decode(Base64UrlToBase64(parts[1]))
  }

  /** Only the second segment is read: a token joined from dot-free segments
      decodes its second one, whether there are two, three (header, payload,
      signature) or more. */
  lemma DecodeTokenReadsPayload(segments: seq<string>, decode: string -> Option<Json>)
    requires |segments| >= 2
    requires forall k :: 0 <= k < |segments| ==> '.' !in segments[k]
    ensures DecodeToken(Join(segments, '.'), decode) == decode(Base64UrlToBase64(segments[1]))
  {
    SplitJoin(segments, '.');
  }

  /** A token with no `.` at all does not decode. */
  lemma DecodeTokenNeedsTwoSegments(token: string, decode: string -> Option<Json>)
    requires '.' !in token
    ensures DecodeToken(token, decode) == None
  {
    assert Split(token, '.') == [token];
  }

  /** The signed-in user the page keeps. */
  datatype User = User(id: Option<Json>, name: Option<Json>, email: Option<Json>, isAdmin: Json)

  /** What the page does with the stored token on mount. */
  datatype Session =
    | SignedIn(user: User)
    | Redirect(error: string)

  const NoTokenError := "No authentication token found. Please login."
  const InvalidTokenError := "Invalid token. Please login again."

  /** The mount effect: no (or an empty) token and a token that does not
      decode to a truthy payload both send the user to the login page, each
      with its own message; otherwise the user record is read from the claims,
      `isAdmin` defaulting to `false`. */
  function LoadSession(token: Option<string>, decode: string -> Option<Json>): (s: Session)
    ensures !Truthy(if token.Some? then Some(JStr(token.value)) else None) ==> s == Redirect(NoTokenError)
    ensures token.Some? && token.value != "" && !Truthy(DecodeToken(token.value, decode)) ==>
              s == Redirect(InvalidTokenError)
    ensures s.SignedIn? <==> token.Some? && token.value != "" && Truthy(DecodeToken(token.value, decode))
    ensures s.SignedIn? ==>
              var payload := DecodeToken(token.value, decode).value;
              && s.user.id == Get(payload, "id") && s.user.name == Get(payload, "name")
              && s.user.email == Get(payload, "email")
              && (Truthy(Get(payload, "isAdmin")) ==> Some(s.user.isAdmin) == Get(payload, "isAdmin"))
              && (!Truthy(Get(payload, "isAdmin")) ==> s.user.isAdmin == JBool(false))
  {
    if token.None? || token.value == "" then Redirect(NoTokenError)
    else
      var decoded := DecodeToken(token.value, decode);
      if !Truthy(decoded) then Redirect(InvalidTokenError)
      else
        var p := decoded.value;
        SignedIn(User(Get(p, "id"), Get(p, "name"), Get(p, "email"),
                      Or(Get(p, "isAdmin"), Some(JBool(false))).value))
  }

  /** Conversely, a token of dot-free segments whose second segment decodes
      to a truthy payload signs the user in with that payload's claims. */
  lemma SignInFromToken(segments: seq<string>, decode: string -> Option<Json>)
    requires |segments| >= 2
    requires forall k :: 0 <= k < |segments| ==> '.' !in segments[k]
    requires Truthy(decode(Base64UrlToBase64(segments[1])))
    ensures LoadSession(Some(Join(segments, '.')), decode).SignedIn?
    ensures LoadSession(Some(Join(segments, '.')), decode).user.id ==
            Get(decode(Base64UrlToBase64(segments[1])).value, "id")
  {
    DecodeTokenReadsPayload(segments, decode);
    assert Join(segments, '.') == segments[0] + ['.'] + Join(segments[1..], '.');
  }

  // ---------------------------------------------------------------- colours

  /** `getPriorityColor`: a colour exactly for the three labels the rank map
      knows, grey for anything else. */
  function PriorityColor(priority: string): (c: Colour)
    ensures c != Gray <==> Rank(priority).Some?
    ensures c == Red <==> Rank(priority) == Some(3)
    ensures c == Yellow <==> Rank(priority) == Some(2)
    ensures c == Green <==> Rank(priority) == Some(1)
  {
    match priority
    case "High" => Red
    case "Med" => Yellow
    case "Low" => Green
    case _ => Gray
  }

  /** The labels the create form emits are unknown here: they get no rank and
      the grey badge, while the edit form's labels are all known. */
  lemma CreateFormLabelsUnranked()
    ensures forall p :: p in {"high", "medium", "low"} ==> Rank(p).None? && PriorityColor(p) == Gray
    ensures forall p :: p in {"High", "Med", "Low"} ==> Rank(p).Some? && PriorityColor(p) != Gray
  {
  }

  // ------------------------------------------------------- in-place sorting

  /** `cur` is `prefix` and `suffix` around a gap at `j`: the entries before
      the gap are the prefix's first `j`, and the rest of the prefix follows it. */
  predicate Gapped(cur: seq<Task>, prefix: seq<Task>, suffix: seq<Task>, j: nat) {
    && j <= |prefix|
    && |cur| == |prefix| + 1 + |suffix|
    && cur == prefix[..j] + [cur[j]] + prefix[j..] + suffix
  }

  /** Inserting `x` into `prefix` is inserting it into the first `j` entries
      and appending the rest. */
  predicate InsertSplits(prefix: seq<Task>, x: Task, order: SortBy, j: nat) {
    j <= |prefix| && Insert(prefix, x, order) == Insert(prefix[..j], x, order) + prefix[j..]
  }

  /** Before the inner loop the gap is at `i`, where `x` was taken from. */
  lemma GapStart(cur: seq<Task>, i: nat, order: SortBy)
    requires i < |cur|
    ensures Gapped(cur, cur[..i], cur[i + 1..], i)
    ensures InsertSplits(cur[..i], cur[i], order, i)
  {
    var prefix := cur[..i];
    assert prefix[..i] == prefix && prefix[i..] == [];
    assert cur == prefix + [cur[i]] + cur[i + 1..];
  }

  /** One shift of the inner loop on values: copying the entry before the gap
      into it moves the gap one place left. */
  lemma ShiftStep(prefix: seq<Task>, suffix: seq<Task>, cur: seq<Task>, next: seq<Task>,
                  j: nat, x: Task, order: SortBy)
    requires 0 < j && Gapped(cur, prefix, suffix, j) && InsertSplits(prefix, x, order, j)
    requires Compare(cur[j - 1], x, order) > 0
    requires next == cur[j := cur[j - 1]]
    ensures Gapped(next, prefix, suffix, j - 1) && InsertSplits(prefix, x, order, j - 1)
  {
    assert cur[j - 1] == prefix[j - 1];
    InsertShift(prefix, j, x, order);
    var u := prefix[..j - 1] + [prefix[j - 1]] + prefix[j - 1..] + suffix;
    assert |next| == |u|;
    forall k | 0 <= k < |next| ensures next[k] == u[k] {
      if k < j - 1 {
      } else if k == j - 1 || k == j {
      } else if k <= |prefix| {
        assert next[k] == prefix[k - 1] && u[k] == prefix[k - 1];
      } else {
        assert next[k] == suffix[k - |prefix| - 1] && u[k] == suffix[k - |prefix| - 1];
      }
    }
  }

  /** The end of the inner loop on values: once the entry before the gap is
      not after `x`, putting `x` in the gap completes the insertion. */
  lemma FillStep(prefix: seq<Task>, suffix: seq<Task>, cur: seq<Task>, next: seq<Task>,
                 j: nat, x: Task, order: SortBy)
    requires Gapped(cur, prefix, suffix, j) && InsertSplits(prefix, x, order, j)
    requires j == 0 || Compare(cur[j - 1], x, order) <= 0
    requires next == cur[j := x]
    ensures next[..|prefix| + 1] == Insert(prefix, x, order) && next[|prefix| + 1..] == suffix
  {
    if j > 0 {
      assert cur[j - 1] == prefix[j - 1];
    }
    InsertStop(prefix, j, x, order);
    assert next == prefix[..j] + [x] + prefix[j..] + suffix;
    assert next == Insert(prefix, x, order) + suffix;
  }

  /** The inner loop of one pass: the entries of `a[..i]` that the
      comparator puts strictly after `x` move one place right, leaving a gap
      at the returned index where `x` belongs. */
  method ShiftRight(a: array<Task>, i: nat, x: Task, order: SortBy,
                    ghost prefix: seq<Task>, ghost suffix: seq<Task>) returns (j: nat)
    requires Gapped(a[..], prefix, suffix, i) && InsertSplits(prefix, x, order, i)
    modifies a
    ensures j <= i
    ensures Gapped(a[..], prefix, suffix, j) && InsertSplits(prefix, x, order, j)
    ensures j == 0 || Compare(a[j - 1], x, order) <= 0
  {
    j := i;
    while j > 0 && Compare(a[j - 1], x, order) > 0
      invariant j <= i
      invariant Gapped(a[..], prefix, suffix, j) && InsertSplits(prefix, x, order, j)
    {
      ghost var cur := a[..];
      a[j] := a[j - 1];
      assert a[..] == cur[j := cur[j - 1]];
      ShiftStep(prefix, suffix, cur, a[..], j, x, order);
      j := j - 1;
    }
  }

  /** One pass of the insertion sort: `a[i]` moves left past the entries of
      the sorted prefix `a[..i]` that the comparator puts strictly after it. */
  method InsertInPlace(a: array<Task>, i: nat, order: SortBy)
    requires i < a.Length
    modifies a
    ensures a[..i + 1] == Insert(old(a[..i]), old(a[i]), order)
    ensures a[i + 1..] == old(a[i + 1..])
  {
    var x := a[i];
    ghost var prefix := a[..i];
    ghost var suffix := a[i + 1..];
    GapStart(a[..], i, order);
    var j := ShiftRight(a, i, x, order, prefix, suffix);
    ghost var cur := a[..];
    a[j] := x;
    assert a[..] == cur[j := x];
    FillStep(prefix, suffix, cur, a[..], j, x, order);
  }

  /** One step of the outer loop on values: when `cur` holds the sorted first
      `i` elements of `s` followed by the rest of `s`, inserting `cur[i]` into
      its prefix yields the sorted first `i + 1` elements followed by the rest. */
  lemma SortStep(s: seq<Task>, cur: seq<Task>, next: seq<Task>, i: nat, order: SortBy)
    requires i < |s| == |cur| == |next|
    requires cur[..i] == Sort(s[..i], order) && cur[i..] == s[i..]
    requires next[..i + 1] == Insert(cur[..i], cur[i], order) && next[i + 1..] == cur[i + 1..]
    ensures next[..i + 1] == Sort(s[..i + 1], order) && next[i + 1..] == s[i + 1..]
  {
    assert s[..i + 1][..i] == s[..i];
    assert cur[i] == cur[i..][0] == s[i..][0] == s[i];
    assert cur[i + 1..] == cur[i..][1..] == s[i..][1..] == s[i + 1..];
  }

  /** `array.sort(cmp)`: a stable insertion sort of `a` in place. */
  method SortInPlace(a: array<Task>, order: SortBy)
    modifies a
    ensures a[..] == Sort(old(a[..]), order)
  {
    ghost var s := a[..];
    var i := 0;
    while i < a.Length
      invariant 0 <= i <= a.Length
      invariant a[..i] == Sort(s[..i], order)
      invariant a[i..] == s[i..]
    {
      ghost var cur := a[..];
      InsertInPlace(a, i, order);
      SortStep(s, cur, a[..], i, order);
      i := i + 1;
    }
    assert s[..a.Length] == s;
  }

  /** A copy of `s` in a new array. */
  method ArrayOf(s: seq<Task>) returns (a: array<Task>)
    ensures fresh(a) && a[..] == s
  {
    a := new Task[|s|](i requires 0 <= i < |s| => s[i]);
  }

  // ------------------------------------------------------------- page state

  /** The outcome of the task-list request. */
  datatype TasksReply = TasksLoaded(tasks: seq<Task>) | TasksFailed(message: string)

  class DashboardPage {
    var tasks: array<Task>
    var loading: bool
    var error: string
    var filter: Filter
    var sortBy: SortBy
    var isModalOpen: bool
    var isEditModalOpen: bool
    var taskToEdit: Option<string>

    constructor ()
      ensures tasks[..] == [] && loading && error == ""
      ensures filter == All && sortBy == Newest
      ensures !isModalOpen && !isEditModalOpen && taskToEdit == None
    {
      tasks := new Task[0];
      loading, error := true, "";
      filter, sortBy := All, Newest;
      isModalOpen, isEditModalOpen, taskToEdit := false, false, None;
    }

    /** `getStats`, over the whole list whatever the filter. */
    function Stats(): (s: TaskView.Stats)
      reads this, tasks
      ensures s.total == tasks.Length
      ensures s.completed == |Select(tasks[..], true)| && s.pending == |Select(tasks[..], false)|
    {
      GetStats(tasks[..])
    }

    /** `fetchTasks`: the error is cleared before the request; the list is
      replaced on success, and on failure it stays and the error names the
      cause. */
    method FetchTasks(reply: TasksReply)
      modifies this
      ensures !loading
      ensures reply.TasksLoaded? ==> fresh(tasks) && tasks[..] == reply.tasks && error == ""
      ensures reply.TasksFailed? ==>
                tasks == old(tasks) && error == "Failed to fetch tasks: " + reply.message
      ensures filter == old(filter) && sortBy == old(sortBy) && isModalOpen == old(isModalOpen)
      ensures isEditModalOpen == old(isEditModalOpen) && taskToEdit == old(taskToEdit)
    {
      loading, error := true, "";
      if reply.TasksLoaded? {
        tasks := ArrayOf(reply.tasks);
      } else {
        error := "Failed to fetch tasks: " + reply.message;
      }
      loading := false;
    }

    /** `handleTaskCreated`: the new task goes to the end and the create
      modal closes. */
    method HandleTaskCreated(newTask: Task)
      modifies this
      ensures fresh(tasks) && tasks[..] == Appended(old(tasks[..]), newTask)
      ensures !isModalOpen
      ensures filter == old(filter) && sortBy == old(sortBy) && loading == old(loading) && error == old(error)
      ensures isEditModalOpen == old(isEditModalOpen) && taskToEdit == old(taskToEdit)
    {
      tasks := ArrayOf(Appended(tasks[..], newTask));
      isModalOpen := false;
    }

    /** `handleDeleteTask`: on an OK response every task with that id goes;
      otherwise nothing changes. */
    method HandleDeleteTask(taskId: string, ok: bool)
      modifies this
      ensures ok ==> fresh(tasks) && tasks[..] == RemoveById(old(tasks[..]), taskId)
      ensures !ok ==> tasks == old(tasks)
      ensures filter == old(filter) && sortBy == old(sortBy) && loading == old(loading) && error == old(error)
      ensures isModalOpen == old(isModalOpen) && isEditModalOpen == old(isEditModalOpen)
      ensures taskToEdit == old(taskToEdit)
    {
      if ok {
        tasks := ArrayOf(RemoveById(tasks[..], taskId));
      }
    }

    /** `handleCompletedTask`: on an OK response (`Some` with the server's
      `task`) that task replaces every entry with the id; otherwise nothing
      changes. */
    method HandleCompletedTask(taskId: string, reply: Option<Task>)
      modifies this
      ensures reply.Some? ==> fresh(tasks) && tasks[..] == ReplaceById(old(tasks[..]), taskId, reply.value)
      ensures reply.None? ==> tasks == old(tasks)
      ensures filter == old(filter) && sortBy == old(sortBy) && loading == old(loading) && error == old(error)
      ensures isModalOpen == old(isModalOpen) && isEditModalOpen == old(isEditModalOpen)
      ensures taskToEdit == old(taskToEdit)
    {
      if reply.Some? {
        tasks := ArrayOf(ReplaceById(tasks[..], taskId, reply.value));
      }
    }

    /** `handleEditClick`: remember the task and open the edit modal. */
    method HandleEditClick(taskId: string)
      modifies this
      ensures taskToEdit == Some(taskId) && isEditModalOpen
      ensures tasks == old(tasks) && isModalOpen == old(isModalOpen)
      ensures filter == old(filter) && sortBy == old(sortBy) && loading == old(loading) && error == old(error)
    {
      taskToEdit := Some(taskId);
      isEditModalOpen := true;
    }

    /** `handleTaskUpdated`: the edited fields are merged over every entry
      with the id, and the edit modal closes. */
    method HandleTaskUpdated(taskId: string, edited: Patch)
      modifies this
      ensures fresh(tasks) && tasks[..] == MergeById(old(tasks[..]), taskId, edited)
      ensures !isEditModalOpen && taskToEdit == None
      ensures filter == old(filter) && sortBy == old(sortBy) && loading == old(loading) && error == old(error)
      ensures isModalOpen == old(isModalOpen)
    {
      tasks := ArrayOf(MergeById(tasks[..], taskId, edited));
      isEditModalOpen := false;
      taskToEdit := None;
    }

    /** `handleCloseEditModal`. */
    method HandleCloseEditModal()
      modifies this
      ensures !isEditModalOpen && taskToEdit == None
      ensures tasks == old(tasks) && isModalOpen == old(isModalOpen)
      ensures filter == old(filter) && sortBy == old(sortBy) && loading == old(loading) && error == old(error)
    {
      isEditModalOpen := false;
      taskToEdit := None;
    }

    /** `filteredAndSortedTasks`. Under `All` the live task array itself is
      sorted and returned, so the stored list is permuted in place; under the
      other filters a new array is sorted and the stored list is untouched.
      Either way the result is the projected view of the old list. */
    method FilteredAndSortedTasks() returns (r: array<Task>)
      modifies tasks
      ensures r[..] == View(old(tasks[..]), filter, sortBy)
      ensures filter == All ==> r == tasks
      ensures filter != All ==> fresh(r) && tasks[..] == old(tasks[..])
    {
      if filter == All {
        r := tasks;
      } else {
        r := ArrayOf(Filtered(tasks[..], filter));
      }
      SortInPlace(r, sortBy);
    }
  }
}

=== FILE: js.dfy ===
/** The slice of JavaScript value semantics the client depends on: parsed JSON
    values, property access (`v.key`, with `undefined` as `None`), truthiness
    and the `||` operator. Numbers are modelled as integers. */
module Js {
  import opened Wrappers

  datatype Json =
    | JNull
    | JBool(b: bool)
    | JNum(n: int)
    | JStr(s: string)
    | JArr(items: seq<Json>)
    | JObj(fields: map<string, Json>)

  /** `v.key` on a value that is not `null`: an object's own property, and
      `undefined` for every other value. Reading a property of `null` throws,
      which callers handle before calling this. */
  function Get(v: Json, key: string): (r: Option<Json>)
    requires v != JNull
    ensures r.Some? <==> v.JObj? && key in v.fields
    ensures r.Some? ==> r.value == v.fields[key]
  {
    match v
    case JObj(m) => if key in m then Some(m[key]) else None
    case _ => None
  }

  /** JavaScript truthiness of a possibly `undefined` value: `undefined`,
      `null`, `false`, `0` and `""` are falsy; everything else, including every
      array and object, is truthy. */
  predicate Truthy(v: Option<Json>)
    ensures Truthy(v) ==> v.Some? && !v.value.JNull?
    ensures v.Some? && (v.value.JArr? || v.value.JObj?) ==> Truthy(v)
    ensures v.Some? && v.value.JStr? ==> (Truthy(v) <==> v.value.s != "")
  {
    match v
    case None => false
    case Some(JNull) => false
    case Some(JBool(b)) => b
    case Some(JNum(n)) => n != 0
    case Some(JStr(s)) => s != ""
    case Some(_) => true
  }

  /** `a || b`: the left operand when it is truthy, else the right one. */
  function Or(a: Option<Json>, b: Option<Json>): (r: Option<Json>)
    ensures Truthy(r) <==> Truthy(a) || Truthy(b)
    ensures Truthy(a) ==> r == a
    ensures !Truthy(a) ==> r == b
  {
    if Truthy(a) then a else b
  }
}

=== FILE: strings.dfy ===
/** The JavaScript string operations the client relies on: `trim`, `split` on a
    one-character separator (with `join` as its inverse), a global one-character
    `replace`, and `toLowerCase` restricted to ASCII letters. */
module Strings {

  /** The code points ECMAScript counts as WhiteSpace or LineTerminator, which is
      exactly what `String.prototype.trim` strips from both ends. */
  predicate IsWhitespace(c: char) {
    || c == '\t' || c == '\U{000B}' || c == '\U{000C}' || c == ' '
    || c == '\U{00A0}' || c == '\U{FEFF}' || c == '\U{1680}'
    || ('\U{2000}' <= c <= '\U{200A}')
    || c == '\U{202F}' || c == '\U{205F}' || c == '\U{3000}'
    || c == '\n' || c == '\r' || c == '\U{2028}' || c == '\U{2029}'
  }

  predicate AllWhitespace(s: string) {
    forall i :: 0 <= i < |s| ==> IsWhitespace(s[i])
  }

  /** Leading whitespace removed: the result is the longest suffix that does
      not start with whitespace, and what was dropped is all whitespace. */
  function TrimStart(s: string): (r: string)
    ensures |r| <= |s| && r == s[|s| - |r|..]
    ensures AllWhitespace(s[..|s| - |r|])
    ensures r == [] || !IsWhitespace(r[0])
  {
    if s != [] && IsWhitespace(s[0]) then TrimStart(s[1..]) else s
  }

  /** Trailing whitespace removed, symmetric to `TrimStart`. */
  function TrimEnd(s: string): (r: string)
    ensures |r| <= |s| && r == s[..|r|]
    ensures AllWhitespace(s[|r|..])
    ensures r == [] || !IsWhitespace(r[|r| - 1])
  {
    if s != [] && IsWhitespace(s[|s| - 1]) then TrimEnd(s[..|s| - 1]) else s
  }

  /** `r` is `s[i..j]`, and everything cut off on either side is whitespace. */
  predicate CutFrom(s: string, r: string, i: int, j: int) {
    0 <= i <= j <= |s| && r == s[i..j] && AllWhitespace(s[..i]) && AllWhitespace(s[j..])
  }

  /** `s.trim()`: a slice of `s` with only whitespace cut off on either
      side, and no whitespace left at either end. */
  function Trim(s: string): (r: string)
    ensures exists i, j :: CutFrom(s, r, i, j)
    ensures r == [] || (!IsWhitespace(r[0]) && !IsWhitespace(r[|r| - 1]))
  {
    CutTwice(s, TrimStart(s), TrimEnd(TrimStart(s)));
    TrimEnd(TrimStart(s))
  }

  /** Cutting whitespace off the front and then off the back leaves a slice of
      `s` with only whitespace cut off on either side. */
  lemma CutTwice(s: string, t: string, r: string)
    requires |t| <= |s| && t == s[|s| - |t|..] && AllWhitespace(s[..|s| - |t|])
    requires |r| <= |t| && r == t[..|r|] && AllWhitespace(t[|r|..])
    ensures CutFrom(s, r, |s| - |t|, |s| - |t| + |r|)
  {
    var i := |s| - |t|;
    var j := i + |r|;
    assert r == s[i..j];
    assert s[j..] == t[|r|..];
  }

  /** A string is blank after trimming exactly when it is all whitespace: this
      is what `!x.trim()` tests in the form validators. */
  lemma TrimEmptyIff(s: string)
    ensures Trim(s) == [] <==> AllWhitespace(s)
  {
    var t := TrimStart(s);
    if t == [] {
      assert s == s[..|s| - |t|];
    }
  }

  /** Trimming twice is trimming once. */
  lemma TrimIdempotent(s: string)
    ensures Trim(Trim(s)) == Trim(s)
  {
    var r := Trim(s);
    if r != [] {
      assert !IsWhitespace(r[0]) && !IsWhitespace(r[|r| - 1]);
      assert TrimStart(r) == r;
      assert TrimEnd(r) == r;
    }
  }

  /** Position of the first occurrence of `c`. */
  function IndexOf(s: string, c: char): (i: nat)
    requires c in s
    ensures i < |s| && s[i] == c && c !in s[..i]
  {
    if s[0] == c then 0 else 1 + IndexOf(s[1..], c)
  }

  /** `s.split(c)` for a one-character separator: the pieces between
      consecutive occurrences of `c`, so there is always at least one piece. */
  function Split(s: string, c: char): (parts: seq<string>)
    ensures |parts| >= 1
    decreases |s|
  {
    if c !in s then [s]
    else
      var i := IndexOf(s, c);
      [s[..i]] + Split(s[i + 1..], c)
  }

  /** No piece of a split holds the separator. */
  lemma {:induction false} SplitPiecesFree(s: string, c: char)
    ensures forall k :: 0 <= k < |Split(s, c)| ==> c !in Split(s, c)[k]
    decreases |s|
  {
    if c in s {
      var i := IndexOf(s, c);
      SplitPiecesFree(s[i + 1..], c);
      assert Split(s, c) == [s[..i]] + Split(s[i + 1..], c);
    }
  }

  /** `parts.join(c)`. */
  function Join(parts: seq<string>, c: char): (s: string)
    requires |parts| >= 1
  {
    if |parts| == 1 then parts[0] else parts[0] + [c] + Join(parts[1..], c)
  }

  /** Splitting loses nothing: joining the pieces gives the string back. */
  lemma {:induction false} JoinSplit(s: string, c: char)
    ensures Join(Split(s, c), c) == s
    decreases |s|
  {
    if c in s {
      var i := IndexOf(s, c);
      var rest := s[i + 1..];
      var parts := Split(s, c);
      assert parts == [s[..i]] + Split(rest, c);
      assert parts[0] == s[..i] && parts[1..] == Split(rest, c);
      JoinSplit(rest, c);
      assert Join(parts, c) == s[..i] + [c] + rest;
      assert s == s[..i] + [c] + rest;
    } else {
      assert Split(s, c) == [s];
    }
  }

  /** Pieces that do not contain the separator are recovered by splitting
      their join. */
  lemma {:induction false} SplitJoin(parts: seq<string>, c: char)
    requires |parts| >= 1
    requires forall k :: 0 <= k < |parts| ==> c !in parts[k]
    ensures Split(Join(parts, c), c) == parts
  {
    if |parts| == 1 {
      assert Join(parts, c) == parts[0];
    } else {
      var p := parts[0];
      var rest := Join(parts[1..], c);
      var s := Join(parts, c);
      assert s == p + [c] + rest;
      assert s[|p|] == c && s[..|p|] == p && s[|p| + 1..] == rest;
      assert c !in p;
      assert IndexOf(s, c) == |p| by {
        IndexOfFirst(s, c, |p|);
      }
      SplitJoin(parts[1..], c);
      assert Split(s, c) == [p] + parts[1..];
    }
  }

  /** The first occurrence is at `i` when `s[i]` is `c` and no earlier
      character is. */
  lemma IndexOfFirst(s: string, c: char, i: nat)
    requires i < |s| && s[i] == c && c !in s[..i]
    ensures IndexOf(s, c) == i
  {
    var j := IndexOf(s, c);
    assert forall k :: 0 <= k < i ==> s[..i][k] == s[k];
    assert forall k :: 0 <= k < j ==> s[..j][k] == s[k];
  }

  /** The first piece of `d + [c] + rest` is `d` when `d` holds no `c`. */
  lemma SplitFirstPiece(d: string, c: char, rest: string)
    requires c !in d
    ensures Split(d + [c] + rest, c)[0] == d
  {
    var s := d + [c] + rest;
    assert s[|d|] == c;
    assert s[..|d|] == d;
  }

  /** The first piece of a split is the prefix of `s` up to its first `c`, or
      all of `s` when it has none. */
  lemma SplitFirstIsPrefix(s: string, c: char)
    ensures Split(s, c)[0] <= s && c !in Split(s, c)[0]
    ensures |Split(s, c)[0]| == |s| || s[|Split(s, c)[0]|] == c
  {
    if c in s {
      var i := IndexOf(s, c);
      assert Split(s, c)[0] == s[..i];
    }
  }

  /** `s.length`: JavaScript counts UTF-16 code units, so a character outside
      the Basic Multilingual Plane (a surrogate pair) counts twice. */
  function Utf16Length(s: string): (n: nat)
    ensures |s| <= n <= 2 * |s|
  {
    if s == [] then 0 else (if s[0] as int >= 0x10000 then 2 else 1) + Utf16Length(s[1..])
  }

  /** One character of the string alone: two code units for a character at
      or above U+10000 (a surrogate pair), one otherwise. */
  lemma Utf16LengthOfChar(c: char)
    ensures Utf16Length([c]) == if c as int >= 0x10000 then 2 else 1
  {
  }

  /** The length of a concatenation is the sum of the lengths, so with
      `Utf16LengthOfChar` it is the sum of the per-character weights. */
  lemma {:induction false} Utf16LengthAppend(s: string, t: string)
    ensures Utf16Length(s + t) == Utf16Length(s) + Utf16Length(t)
  {
    if s != [] {
      assert (s + t)[0] == s[0] && (s + t)[1..] == s[1..] + t;
      Utf16LengthAppend(s[1..], t);
    } else {
      assert s + t == t;
    }
  }

  /** Characters of the Basic Multilingual Plane count once each. */
  lemma {:induction false} Utf16LengthOfBmp(s: string)
    requires forall i :: 0 <= i < |s| ==> s[i] as int < 0x10000
    ensures Utf16Length(s) == |s|
  {
    if s != [] {
      Utf16LengthOfBmp(s[1..]);
    }
  }

  /** `s.replace(/a/g, b)` for single characters `a` and `b`. */
  function ReplaceAll(s: string, a: char, b: char): (r: string)
    ensures |r| == |s|
    ensures forall i :: 0 <= i < |s| ==> r[i] == (if s[i] == a then b else s[i])
  {
    if s == [] then [] else [if s[0] == a then b else s[0]] + ReplaceAll(s[1..], a, b)
  }

  predicate IsAsciiUpper(c: char) {
    'A' <= c <= 'Z'
  }

  /** One character lower-cased: `A`-`Z` become `a`-`z`, the rest stay. */
  function ToLowerChar(c: char): (r: char)
    ensures IsAsciiUpper(c) ==> r as int == c as int + 32 && 'a' <= r <= 'z'
    ensures !IsAsciiUpper(c) ==> r == c
  {
    if IsAsciiUpper(c) then (c as int + 32) as char else c
  }

  /** `s.toLowerCase()` on the ASCII letters. */
  function ToLower(s: string): (r: string)
    ensures |r| == |s|
    ensures forall i :: 0 <= i < |s| ==> r[i] == ToLowerChar(s[i])
    ensures forall i :: 0 <= i < |s| ==> !IsAsciiUpper(r[i])
    ensures forall i :: 0 <= i < |s| && !IsAsciiUpper(s[i]) ==> r[i] == s[i]
  {
    if s == [] then [] else [ToLowerChar(s[0])] + ToLower(s[1..])
  }

  /** Lower-casing is idempotent. */
  lemma ToLowerIdempotent(s: string)
    ensures ToLower(ToLower(s)) == ToLower(s)
  {
    var r := ToLower(s);
    assert forall i :: 0 <= i < |r| ==> ToLower(r)[i] == r[i];
  }
}

=== FILE: task_edit_form.dfy ===
/** The "edit task" modal: the record loaded from the server and normalised
    for the form, the field edits, the update it sends and its reset. */
module TaskEditForm {
  import opened Wrappers
  import opened Strings
  import opened Js
  import TaskForm

  /** The edited task as the form holds it: a plain object. */
  type Record = map<string, Json>

  /** The record as first rendered and as reset on close. */
  const BlankRecord: Record :=
    map["title" := JStr(""), "description" := JStr(""), "priority" := JStr("Low"), "dueDate" := JStr("")]

  const LoadFailed := "Could not load task."
  const UpdateFailed := "Failed to update task."

  /** The effect's guard: a task is loaded only while the modal is open and
      has a truthy task id. */
  predicate ShouldFetch(isOpen: bool, taskId: Option<string>)
    ensures ShouldFetch(isOpen, taskId) <==>
              isOpen && Truthy(if taskId.Some? then Some(JStr(taskId.value)) else None)
  {
    isOpen && taskId.Some? && taskId.value != ""
  }

  /** `data.task || data` on a body that is not `null`. */
  function Unwrap(data: Json): (r: Json)
    requires data != JNull
    ensures r != JNull
    ensures Truthy(Get(data, "task")) ==> r == Get(data, "task").value
    ensures !Truthy(Get(data, "task")) ==> r == data
  {
    if Truthy(Get(data, "task")) then Get(data, "task").value else data
  }

  /** `{ ...v }`: the own properties of an object; other values contribute
      none. */
  function Fields(v: Json): (m: Record)
    ensures v.JObj? ==> m == v.fields
    ensures !v.JObj? ==> m == map[]
  {
    if v.JObj? then v.fields else map[]
  }

  /** `dueDate?.split('T')[0] || ''`: missing or `null` gives the empty
      string, a string gives its part before the first `T`, and any other
      value throws (`None`), since it has no `split`. */
  function DateOnly(dueDate: Option<Json>): (r: Option<string>)
    ensures r.Some? <==> dueDate.None? || dueDate.value.JNull? || dueDate.value.JStr?
    ensures dueDate.None? || dueDate.value.JNull? ==> r == Some("")
    ensures r.Some? ==> 'T' !in r.value
    ensures r.Some? && dueDate.Some? && dueDate.value.JStr? ==>
              var s := dueDate.value.s;
              r.value <= s && (|r.value| == |s| || s[|r.value|] == 'T')
  {
    match dueDate
    case None => Some("")
    case Some(JNull) => Some("")
    case Some(JStr(s)) => SplitFirstIsPrefix(s, 'T'); Some(Split(s, 'T')[0])
    case Some(_) => None
  }

  /** What `fetchTask` stores from a response body: the unwrapped task with
      its due date cut down to the date. `None` where reading the body throws:
      a `null` body, or a due date that is not a string. */
  function Normalise(data: Json): (r: Option<Record>)
    ensures r.Some? <==> data != JNull && DateOnly(Get(Unwrap(data), "dueDate")).Some?
    ensures r.Some? ==> "dueDate" in r.value && r.value["dueDate"] == JStr(DateOnly(Get(Unwrap(data), "dueDate")).value)
    ensures r.Some? ==> 'T' !in r.value["dueDate"].s
    ensures r.Some? ==> forall k :: k in Fields(Unwrap(data)) && k != "dueDate" ==>
                          k in r.value && r.value[k] == Fields(Unwrap(data))[k]
    ensures r.Some? ==> r.value.Keys == Fields(Unwrap(data)).Keys + {"dueDate"}
  {
    if data == JNull then None
    else
      var taskData := Unwrap(data);
      var date := DateOnly(Get(taskData, "dueDate"));
      if date.None? then None
      else Some(Fields(taskData)["dueDate" := JStr(date.value)])
  }

  /** Loading what loading produced gives it back, as long as it has no
      truthy `task` property of its own. */
  lemma NormaliseIdempotent(data: Json)
    requires Normalise(data).Some?
    requires !Truthy(Get(JObj(Normalise(data).value), "task"))
    ensures Normalise(JObj(Normalise(data).value)) == Normalise(data)
  {
    var r := Normalise(data).value;
    var again := Normalise(JObj(r));
    assert DateOnly(Get(JObj(r), "dueDate")) == Some(r["dueDate"].s);
    assert again.value == r;
  }

  /** A task created through the create form and loaded here shows the date
      the user picked there. */
  lemma CreatedDateRoundTrip(form: TaskForm.FormData, userId: Json)
    requires TaskForm.IsIsoDate(form.dueDate)
    ensures DateOnly(Some(JStr(TaskForm.BuildPayload(form, userId).value.dueDate))) == Some(form.dueDate)
  {
    TaskForm.PayloadKeepsPickedDate(form, userId);
  }

  /** How a request settled: a body that was read, or a failure (a response
      that was not ok, a network error or a body that is not JSON). */
  datatype FetchReply = Loaded(body: Json) | FetchFailed

  /** The request `handleSubmit` sends: `PUT` of the whole record. */
  datatype UpdateRequest = UpdateRequest(taskId: Option<string>, body: Record)

  class TaskEditModal {
    var task: Record
    var loading: bool
    var error: string

    constructor ()
      ensures task == BlankRecord && !loading && error == ""
    {
      task := BlankRecord;
      loading := false;
      error := "";
    }

    /** `fetchTask`: a body that normalises replaces the record and clears
      the error; anything else leaves the record and reports the failure. */
    method FetchTask(reply: FetchReply)
      modifies this
      ensures !loading
      ensures reply.Loaded? && Normalise(reply.body).Some? ==>
                task == Normalise(reply.body).value && error == ""
      ensures !(reply.Loaded? && Normalise(reply.body).Some?) ==>
                task == old(task) && error == LoadFailed
    {
      loading := true;
      error := "";
      var loaded := if reply.Loaded? then Normalise(reply.body) else None;
      if loaded.Some? {
        task := loaded.value;
      } else {
        error := LoadFailed;
      }
      loading := false;
    }

    /** The effect on `isOpen` and `taskId`: loads the task when the guard
        holds, and otherwise changes nothing. */
    method Sync(isOpen: bool, taskId: Option<string>, reply: FetchReply) returns (fetched: bool)
      modifies this
      ensures fetched == ShouldFetch(isOpen, taskId)
      ensures !fetched ==> task == old(task) && loading == old(loading) && error == old(error)
      ensures fetched && reply.Loaded? && Normalise(reply.body).Some? ==>
                task == Normalise(reply.body).value && error == "" && !loading
      ensures fetched && !(reply.Loaded? && Normalise(reply.body).Some?) ==>
                task == old(task) && error == LoadFailed && !loading
    {
      fetched := ShouldFetch(isOpen, taskId);
      if fetched {
        FetchTask(reply);
      }
    }

    /** `handleChange`: the named property takes the typed value. */
    method HandleChange(name: string, value: string)
      modifies this
      ensures task == old(task)[name := JStr(value)]
      ensures task.Keys == old(task).Keys + {name}
      ensures forall k :: k in old(task) && k != name ==> task[k] == old(task)[k]
      ensures loading == old(loading) && error == old(error)
    {
      task := task[name := JStr(value)];
    }

    /** `handleSubmit`: the whole record is sent; on success the parent gets
      the id and the record and the modal asks to close (`close`, the
      call to `onClose`), otherwise the failure is shown. */
    method HandleSubmit(taskId: Option<string>, ok: bool)
      returns (request: UpdateRequest, updated: Option<Record>, close: bool)
      modifies this
      ensures request == UpdateRequest(taskId, old(task))
      ensures task == old(task) && loading == old(loading)
      ensures close <==> ok
      ensures ok ==> updated == Some(task) && error == old(error)
      ensures !ok ==> updated.None? && error == UpdateFailed
    {
      request := UpdateRequest(taskId, task);
      if ok {
        updated, close := Some(task), true;
      } else {
        updated, close := None, false;
        error := UpdateFailed;
      }
    }

    /** `handleClose`: back to the blank record with no error, and the modal
        asks its parent to close it (`close`, the call to `onClose`). */
    method HandleClose() returns (close: bool)
      modifies this
      ensures task == BlankRecord && error == "" && loading == old(loading) && close
    {
      task := BlankRecord;
      error := "";
      close := true;
    }
  }
}

=== FILE: task_form.dfy ===
/** The "create task" modal: the user id read from the stored token, the
    form's fields, the checks before submitting, the payload posted to the
    server and what the modal does with the reply. */
module TaskForm {
  import opened Wrappers
  import opened Strings
  import opened Js
  import opened TaskView

  // ------------------------------------------------------------- user id

  /** `payload.userId || payload.id || payload.user_id || null`, with `null`
      as `None`: the first truthy claim in that order. */
  function ClaimedUserId(payload: Json): (r: Option<Json>)
    requires payload != JNull
    ensures r.Some? ==> Truthy(r)
    ensures r.None? <==>
              !Truthy(Get(payload, "userId")) && !Truthy(Get(payload, "id")) && !Truthy(Get(payload, "user_id"))
    ensures Truthy(Get(payload, "userId")) ==> r == Get(payload, "userId")
    ensures !Truthy(Get(payload, "userId")) && Truthy(Get(payload, "id")) ==> r == Get(payload, "id")
    ensures (!Truthy(Get(payload, "userId")) && !Truthy(Get(payload, "id")) && Truthy(Get(payload, "user_id")))
              ==> r == Get(payload, "user_id")
  {
    var claim := Or(Or(Get(payload, "userId"), Get(payload, "id")), Get(payload, "user_id"));
    if Truthy(claim) then claim else None
  }

  /** `getUserIdFromToken`: no (or an empty) token, a token that is not three
      `.`-separated segments, a payload that does not decode (`decode` stands
      for `JSON.parse(atob(segment))`) or is `null`, and a payload without a
      truthy claim all give `None`. */
  function GetUserIdFromToken(token: Option<string>, decode: string -> Option<Json>): (r: Option<Json>)
    ensures r.Some? ==> Truthy(r)
    ensures r.Some? ==> token.Some? && |Split(token.value, '.')| == 3
    ensures r.Some? ==>
              var payload := decode(Split(token.value, '.')[1]);
              payload.Some? && payload.value != JNull && r == ClaimedUserId(payload.value)
  {
    if token.None? || token.value == "" then None
    else
      var parts := Split(token.value, '.');
      if |parts| != 3 then None
      else
        var payload := decode(parts[1]);
        if payload.None? || payload.value == JNull then None
        else ClaimedUserId(payload.value)
  }

  /** Conversely, a three-segment token whose payload carries a claim yields
      that claim. */
  lemma UserIdFromWellFormedToken(header: string, payload: string, signature: string,
                                  decode: string -> Option<Json>)
    requires '.' !in header && '.' !in payload && '.' !in signature
    requires decode(payload).Some? && decode(payload).value != JNull
    requires ClaimedUserId(decode(payload).value).Some?
    ensures GetUserIdFromToken(Some(Join([header, payload, signature], '.')), decode)
            == ClaimedUserId(decode(payload).value)
  {
    SplitJoin([header, payload, signature], '.');
  }

  // ---------------------------------------------------------------- form

  datatype FormData = FormData(title: string, description: string, priority: string, dueDate: string)

  /** The form as first rendered and as reset on opening and on cancel. */
  const DefaultForm := FormData("", "", "high", "2025-07-15")

  datatype Field = Title | Description | PriorityField | DueDate

  /** `{ ...prev, [name]: value }` for one of the form's inputs. */
  function WithField(form: FormData, field: Field, value: string): (r: FormData)
    ensures r.title == (if field == Title then value else form.title)
    ensures r.description == (if field == Description then value else form.description)
    ensures r.priority == (if field == PriorityField then value else form.priority)
    ensures r.dueDate == (if field == DueDate then value else form.dueDate)
  {
    match field
    case Title => form.(title := value)
    case Description => form.(description := value)
    case PriorityField => form.(priority := value)
    case DueDate => form.(dueDate := value)
  }

  const TitleRequired := "Please enter a task title"
  const AuthRequired := "User authentication required. Please log in again."
  const CreateFailed := "Failed to create task: "
  /** The message of the `RangeError` that `toISOString` throws on an
      invalid date. */
  const InvalidTimeValue := "Invalid time value"
  const DueTime := "T10:00:00.000Z"

  /** The checks before anything is sent: a blank title first, then a
      missing user id. */
  function ValidateTask(form: FormData, userId: Option<Json>): (r: Option<string>)
    ensures r.None? <==> !AllWhitespace(form.title) && Truthy(userId)
    ensures AllWhitespace(form.title) ==> r == Some(TitleRequired)
    ensures !AllWhitespace(form.title) && !Truthy(userId) ==> r == Some(AuthRequired)
  {
    TrimEmptyIff(form.title);
    if Trim(form.title) == "" then Some(TitleRequired)
    else if !Truthy(userId) then Some(AuthRequired)
    else None
  }

  // ------------------------------------------------------------- payload

  predicate IsDigit(c: char) {
    '0' <= c <= '9'
  }

  function DigitValue(c: char): int {
    c as int - '0' as int
  }

  /** Gregorian leap years: every fourth year, except centuries not divisible
      by 400. */
  predicate IsLeapYear(y: int) {
    y % 4 == 0 && (y % 100 != 0 || y % 400 == 0)
  }

  /** The number of days in month `m` (1 to 12), February having 29 exactly
      when `leap`. */
  function DaysInMonth(leap: bool, m: int): (n: int)
    requires 1 <= m <= 12
    ensures 28 <= n <= 31
    ensures m == 2 ==> n == (if leap then 29 else 28)
    ensures m in {4, 6, 9, 11} ==> n == 30
    ensures m !in {2, 4, 6, 9, 11} ==> n == 31
  {
    if m == 2 then (if leap then 29 else 28)
    else if m == 4 || m == 6 || m == 9 || m == 11 then 30
    else 31
  }

  /** Whether the two-digit number with digits `t` and `u` is a multiple of
      four, decided on the digits alone. */
  predicate FourDivides(t: int, u: int) {
    || (t in {0, 2, 4, 6, 8} && u in {0, 4, 8})
    || (t in {1, 3, 5, 7, 9} && u in {2, 6})
  }

  lemma FourDividesIff(t: int, u: int)
    requires 0 <= t <= 9 && 0 <= u <= 9
    ensures FourDivides(t, u) <==> (10 * t + u) % 4 == 0
  {
  }

  /** The leap-year rule read off the four digits of a year: the last two
      digits decide, unless they are `00`, when the first two do. */
  predicate LeapYearDigits(d: string)
    requires |d| >= 4
  {
    if d[2] == '0' && d[3] == '0' then FourDivides(DigitValue(d[0]), DigitValue(d[1]))
    else FourDivides(DigitValue(d[2]), DigitValue(d[3]))
  }

  function Year(d: string): int
    requires |d| >= 4
  {
    DigitValue(d[0]) * 1000 + DigitValue(d[1]) * 100 + DigitValue(d[2]) * 10 + DigitValue(d[3])
  }

  function Month(d: string): int
    requires |d| >= 7
  {
    DigitValue(d[5]) * 10 + DigitValue(d[6])
  }

  function Day(d: string): int
    requires |d| >= 10
  {
    DigitValue(d[8]) * 10 + DigitValue(d[9])
  }

  /** A date written `YYYY-MM-DD` naming a real calendar day: the due dates
      taken here as giving a valid `Date`, whose `toISOString` is then
      `d + "T10:00:00.000Z"` itself. A day past the month's end counts as
      invalid, as in the engines whose date parser rejects it. */
  predicate IsIsoDate(d: string)
    ensures IsIsoDate(d) ==> |d| == 10 && 'T' !in d
  {
    && |d| == 10
    && d[4] == '-' && d[7] == '-'
    && IsDigit(d[0]) && IsDigit(d[1]) && IsDigit(d[2]) && IsDigit(d[3])
    && IsDigit(d[5]) && IsDigit(d[6]) && IsDigit(d[8]) && IsDigit(d[9])
    && 1 <= Month(d) <= 12
    && 1 <= Day(d) <= DaysInMonth(LeapYearDigits(d), Month(d))
  }

  /** The digit rule is the Gregorian rule on the year the digits spell. */
  lemma LeapYearDigitsIsGregorian(d: string)
    requires |d| >= 4 && IsDigit(d[0]) && IsDigit(d[1]) && IsDigit(d[2]) && IsDigit(d[3])
    ensures LeapYearDigits(d) <==> IsLeapYear(Year(d))
  {
    var c, y := 10 * DigitValue(d[0]) + DigitValue(d[1]), 10 * DigitValue(d[2]) + DigitValue(d[3]);
    assert Year(d) == 100 * c + y;
    FourDividesIff(DigitValue(d[0]), DigitValue(d[1]));
    FourDividesIff(DigitValue(d[2]), DigitValue(d[3]));
    CenturyRule(c, y);
  }

  /** The Gregorian rule for the year `100 * c + y` in terms of its century
      part `c` and its last two digits `y`. */
  lemma CenturyRule(c: int, y: int)
    requires 0 <= c <= 99 && 0 <= y <= 99
    ensures IsLeapYear(100 * c + y) <==> if y == 0 then c % 4 == 0 else y % 4 == 0
  {
    var n := 100 * c + y;
    assert n % 4 == y % 4 by {
      assert n == 4 * (25 * c) + y;
    }
    assert n % 100 == y by {
      assert n == 100 * c + y;
    }
    if y == 0 {
      assert n % 400 == 0 <==> c % 4 == 0 by {
        assert n == 100 * c;
        assert c == 4 * (c / 4) + c % 4;
        assert n == 400 * (c / 4) + 100 * (c % 4);
      }
    }
  }

  /** The thirtieth of February never names a day, nor does the
      twenty-ninth outside a leap year. */
  lemma FebruaryOverflowRejected()
    ensures !IsIsoDate("2025-02-30") && !IsIsoDate("2025-02-29")
  {
    assert Year("2025-02-30") == 2025 && Month("2025-02-30") == 2;
    assert Year("2025-02-29") == 2025 && Month("2025-02-29") == 2;
  }

  /** February 29 is a day in 2024 and in 2000 (divisible by 400), but not in
      1900 (a century not divisible by 400). */
  lemma LeapDayFollowsGregorianRule()
    ensures IsIsoDate("2024-02-29") && IsIsoDate("2000-02-29")
    ensures !IsIsoDate("1900-02-29")
  {
    assert Year("2024-02-29") == 2024 && Month("2024-02-29") == 2 && Day("2024-02-29") == 29;
    assert Year("2000-02-29") == 2000 && Month("2000-02-29") == 2 && Day("2000-02-29") == 29;
    assert Year("1900-02-29") == 1900 && Month("1900-02-29") == 2;
  }

  /** The form's default due date is accepted. */
  lemma DefaultDueDateAccepted()
    ensures IsIsoDate(DefaultForm.dueDate)
  {
    assert Month("2025-07-15") == 7 && Day("2025-07-15") == 15;
  }

  /** The body posted to create a task. */
  datatype TaskPayload = TaskPayload(
    title: string, description: string, completed: bool,
    priority: string, dueDate: string, userId: Json)

  /** The payload built from the form, or `None` where building it throws
      because the due date is not a valid date. */
  function BuildPayload(form: FormData, userId: Json): (r: Option<TaskPayload>)
    ensures r.Some? <==> IsIsoDate(form.dueDate)
    ensures r.Some? ==> !r.value.completed && r.value.priority == form.priority && r.value.userId == userId
    ensures r.Some? ==> r.value.title == Trim(form.title) && r.value.description == Trim(form.description)
    ensures r.Some? ==> r.value.dueDate == form.dueDate + DueTime
  {
    if IsIsoDate(form.dueDate) then
      Some(TaskPayload(Trim(form.title), Trim(form.description), false, form.priority,
                       form.dueDate + DueTime, userId))
    else None
  }

  /** A payload built from a form that passed the checks has a title that is
      not empty and already trimmed. */
  lemma PayloadTitleIsTrimmed(form: FormData, userId: Json)
    requires ValidateTask(form, Some(userId)).None? && IsIsoDate(form.dueDate)
    ensures BuildPayload(form, userId).value.title != ""
    ensures Trim(BuildPayload(form, userId).value.title) == BuildPayload(form, userId).value.title
  {
    TrimEmptyIff(form.title);
    TrimIdempotent(form.title);
  }

  /** The date part of the posted due date is the date the user picked. */
  lemma PayloadKeepsPickedDate(form: FormData, userId: Json)
    requires IsIsoDate(form.dueDate)
    ensures Split(BuildPayload(form, userId).value.dueDate, 'T')[0] == form.dueDate
  {
    var d := form.dueDate;
    assert d + DueTime == d + ['T'] + "10:00:00.000Z";
    SplitFirstPiece(d, 'T', "10:00:00.000Z");
  }

  /** How the create request settled: a success body with its `task` (`None`
      when absent or falsy), a response that was not ok, or an exception from
      `fetch` or from reading the body. */
  datatype CreateReply =
    | Created(task: Option<Task>)
    | HttpFailed(status: string)
    | Thrown(message: string)

  /** The `message` of the error a failed request is caught with. */
  function FailureText(reply: CreateReply): (t: string)
    requires !reply.Created?
    ensures reply.Thrown? ==> t == reply.message
    ensures reply.HttpFailed? ==> t == "HTTP error! status: " + reply.status
  {
    match reply
    case HttpFailed(status) => "HTTP error! status: " + status
    case Thrown(m) => m
  }

  /** What a validated submission ends in: the payload built from the form
      is what gets posted; an invalid date fails before anything is sent;
      otherwise the reply decides between handing the created task to the
      parent and closing, or showing the failure. */
  predicate Settled(form: FormData, userId: Json, reply: CreateReply, sent: Option<TaskPayload>,
                    created: Option<Task>, close: bool, error: Option<string>)
  {
    && sent == BuildPayload(form, userId)
    && (sent.None? ==> created.None? && !close && error == Some(CreateFailed + InvalidTimeValue))
    && (sent.Some? && reply.Created? ==> created == reply.task && close && error == None)
    && (sent.Some? && !reply.Created? ==>
          created.None? && !close && error == Some(CreateFailed + FailureText(reply)))
  }

  // --------------------------------------------------------------- modal

  class TaskFormModal {
    var formData: FormData
    var error: Option<string>
    var loading: bool
    var userId: Option<Json>

    /** First render and the mount effect: the user id is read once from the
        token, and its absence is reported. */
    constructor (token: Option<string>, decode: string -> Option<Json>)
      ensures formData == DefaultForm && !loading
      ensures userId == GetUserIdFromToken(token, decode)
      ensures error == (if userId.None? then Some(AuthRequired) else None)
    {
      formData := DefaultForm;
      loading := false;
      var claim := GetUserIdFromToken(token, decode);
      userId := claim;
      if claim.None? {
        error := Some(AuthRequired);
      } else {
        error := None;
      }
    }

    /** The effect run when `isOpen` becomes true: the form is reset and any
        error, the missing-user-id one included, is cleared. */
    method Open()
      modifies this
      ensures formData == DefaultForm && error == None
      ensures loading == old(loading) && userId == old(userId)
    {
      formData := DefaultForm;
      error := None;
    }

    /** `handleInputChange`: one field takes the value, and a shown error is
        cleared. */
    method HandleInputChange(field: Field, value: string)
      modifies this
      ensures formData == WithField(old(formData), field, value)
      ensures error == (if old(error).Some? && old(error).value != "" then None else old(error))
      ensures loading == old(loading) && userId == old(userId)
    {
      formData := WithField(formData, field, value);
      if error.Some? && error.value != "" {
        error := None;
      }
    }

    /** The request part of `handleTaskSubmit` (its `try`, `catch` and
        `finally`) for a validated form: the payload is built and posted, and
        the reply decides what the parent gets, whether the modal closes and
        the error shown. */
    method SendTask(reply: CreateReply) returns (sent: Option<TaskPayload>, created: Option<Task>, close: bool)
      requires userId.Some?
      modifies this
      ensures formData == old(formData) && userId == old(userId) && !loading
      ensures Settled(formData, userId.value, reply, sent, created, close, error)
    {
      loading := true;
      error := None;
      sent := BuildPayload(formData, userId.value);
      if sent.None? {
        error := Some(CreateFailed + InvalidTimeValue);
        created, close := None, false;
      } else if reply.Created? {
        created, close := reply.task, true;
      } else {
        error := Some(CreateFailed + FailureText(reply));
        created, close := None, false;
      }
      loading := false;
    }

    /** `handleTaskSubmit`. Returns the payload that was posted (if any), the
        created task handed to the parent (if any), and whether the modal asks
        to be closed. */
    method HandleTaskSubmit(reply: CreateReply) returns (sent: Option<TaskPayload>, created: Option<Task>, close: bool)
      modifies this
      ensures formData == old(formData) && userId == old(userId)
      ensures ValidateTask(formData, userId).Some? ==>
                sent.None? && created.None? && !close &&
                error == ValidateTask(formData, userId) && loading == old(loading)
      ensures ValidateTask(formData, userId).None? ==>
                !loading && Settled(formData, userId.value, reply, sent, created, close, error)
    {
      var invalid := ValidateTask(formData, userId);
      if invalid.Some? {
        error := invalid;
        return None, None, false;
      }
      sent, created, close := SendTask(reply);
    }

    /** `handleCancel`: the form is reset, the error cleared, and the modal
        asks its parent to close it (`close`, the call to `onClose`). */
    method HandleCancel() returns (close: bool)
      modifies this
      ensures formData == DefaultForm && error == None && close
      ensures loading == old(loading) && userId == old(userId)
    {
      formData := DefaultForm;
      error := None;
      close := true;
    }
  }
}

=== FILE: task_view.dfy ===
/** The dashboard's task list as values: the filter, the sort comparator with
    the stable order `Array.prototype.sort` must produce (ECMA-262, 2019 edition
    on), the summary counters, and the list rebuilds that follow a successful
    create, delete, toggle or edit. */
module TaskView {
  import opened Wrappers

  /** A task as the dashboard holds it; `dueDate` is the timestamp that
      `new Date(dueDate)` yields. */
  datatype Task = Task(
    id: string,
    title: string,
    description: string,
    completed: bool,
    priority: string,
    dueDate: int,
    userId: string)

  datatype Filter = All | Completed | Pending

  datatype SortBy = Newest | Oldest | Priority

  /** The colour a priority badge is drawn in. */
  datatype Colour = Red | Yellow | Green | Gray

  // ---------------------------------------------------------------- filter

  /** `tasks.filter(t => t.completed == done)`. */
  function Select(tasks: seq<Task>, done: bool): (r: seq<Task>)
    ensures |r| <= |tasks|
  {
    if tasks == [] then []
    else (if tasks[0].completed == done then [tasks[0]] else []) + Select(tasks[1..], done)
  }

  /** The filter keeps exactly the tasks with the given flag. */
  lemma {:induction false} SelectMembers(tasks: seq<Task>, done: bool)
    ensures forall t :: t in Select(tasks, done) <==> t in tasks && t.completed == done
  {
    if tasks != [] {
      SelectMembers(tasks[1..], done);
      assert tasks == [tasks[0]] + tasks[1..];
    }
  }

  /** Selection keeps relative order: it distributes over concatenation. */
  lemma {:induction false} SelectAppend(a: seq<Task>, b: seq<Task>, done: bool)
    ensures Select(a + b, done) == Select(a, done) + Select(b, done)
  {
    if a != [] {
      var head := if a[0].completed == done then [a[0]] else [];
      assert (a + b)[0] == a[0] && (a + b)[1..] == a[1..] + b;
      assert Select(a + b, done) == head + Select(a[1..] + b, done);
      SelectAppend(a[1..], b, done);
      assert Select(a, done) == head + Select(a[1..], done);
    } else {
      assert a + b == b;
    }
  }

  /** The completed and the pending tasks partition the list. */
  lemma {:induction false} SelectPartition(tasks: seq<Task>)
    ensures |Select(tasks, true)| + |Select(tasks, false)| == |tasks|
    ensures multiset(Select(tasks, true)) + multiset(Select(tasks, false)) == multiset(tasks)
  {
    if tasks != [] {
      SelectPartition(tasks[1..]);
      assert tasks == [tasks[0]] + tasks[1..];
    }
  }

  /** Selecting again with the same flag changes nothing. */
  lemma {:induction false} SelectIdempotent(tasks: seq<Task>, done: bool)
    ensures Select(Select(tasks, done), done) == Select(tasks, done)
  {
    if tasks != [] {
      SelectIdempotent(tasks[1..], done);
      var head := if tasks[0].completed == done then [tasks[0]] else [];
      SelectAppend(head, Select(tasks[1..], done), done);
      assert Select(head, done) == head by {
        if head != [] { assert head[1..] == []; }
      }
    }
  }

  /** The filter step of `filteredAndSortedTasks`: `All` passes the list
      through, `Completed` and `Pending` keep exactly the tasks with that flag,
      in their original order. */
  function Filtered(tasks: seq<Task>, filter: Filter): (r: seq<Task>)
    ensures filter == All ==> r == tasks
    ensures filter == Completed ==> forall t :: t in r <==> t in tasks && t.completed
    ensures filter == Pending ==> forall t :: t in r <==> t in tasks && !t.completed
  {
    SelectMembers(tasks, filter == Completed);
    match filter
    case All => tasks
    case Completed => Select(tasks, true)
    case Pending => Select(tasks, false)
  }

  /** The `Completed` and `Pending` views together hold every task exactly once. */
  lemma FilteredPartition(tasks: seq<Task>)
    ensures |Filtered(tasks, Completed)| + |Filtered(tasks, Pending)| == |tasks|
    ensures multiset(Filtered(tasks, Completed)) + multiset(Filtered(tasks, Pending)) == multiset(tasks)
  {
    SelectPartition(tasks);
  }

  // ------------------------------------------------------------------ sort

  /** The rank map `{ High: 3, Med: 2, Low: 1 }`; any other label is absent
      from it (`undefined`). */
  function Rank(priority: string): (r: Option<int>)
    ensures r.Some? ==> 1 <= r.value <= 3
  {
    if priority == "High" then Some(3)
    else if priority == "Med" then Some(2)
    else if priority == "Low" then Some(1)
    else None
  }

  /** Exactly the three labels of the rank map have a rank. */
  lemma RankedLabels(priority: string)
    ensures Rank(priority).Some? <==> priority in {"High", "Med", "Low"}
    ensures Rank("High") == Some(3) && Rank("Med") == Some(2) && Rank("Low") == Some(1)
  {
  }

  /** The comparator passed to `sort`: the difference of the two sort keys.
      A difference involving an absent rank is `NaN`, which the sort treats as
      `+0` (ECMA-262 SortCompare). */
  function Compare(a: Task, b: Task, order: SortBy): (r: int)
    ensures Key(a, order).Some? && Key(b, order).Some? ==> r == KeyVal(a, order) - KeyVal(b, order)
    ensures Key(a, order).None? || Key(b, order).None? ==> r == 0
  {
    match order
    case Newest => b.dueDate - a.dueDate
    case Oldest => a.dueDate - b.dueDate
    case Priority =>
      var ra, rb := Rank(a.priority), Rank(b.priority);
      if ra.Some? && rb.Some? then rb.value - ra.value else 0
  }

  /** The sort key the comparator subtracts: a task sorts before another
      exactly when its key is smaller. No key means no rank. */
  function Key(t: Task, order: SortBy): Option<int> {
    match order
    case Newest => Some(-t.dueDate)
    case Oldest => Some(t.dueDate)
    case Priority => var r := Rank(t.priority); if r.Some? then Some(-r.value) else None
  }

  /** The comparator is consistent in the sense of ECMA-262: swapping its
      arguments negates the result. */
  lemma CompareAntisymmetric(a: Task, b: Task, order: SortBy)
    ensures Compare(a, b, order) == -Compare(b, a, order)
  {
  }

  /** One step of a stable insertion sort: `x`, the later element, moves left
      past the elements the comparator puts strictly after it. */
  function Insert(sorted: seq<Task>, x: Task, order: SortBy): (r: seq<Task>)
    ensures |r| == |sorted| + 1
  {
    if sorted == [] then [x]
    else
      var last := sorted[|sorted| - 1];
      if Compare(last, x, order) > 0 then Insert(sorted[..|sorted| - 1], x, order) + [last]
      else
        sorted + [x]
  }

  /** The order `tasks.sort(cmp)` produces: a stable sort by the comparator. */
  function Sort(tasks: seq<Task>, order: SortBy): (r: seq<Task>)
    ensures |r| == |tasks|
  {
    if tasks == [] then []
    else Insert(Sort(tasks[..|tasks| - 1], order), tasks[|tasks| - 1], order)
  }

  /** The insertion step seen on a prefix `s[..j]`: while the comparator puts
      `s[j - 1]` after `x`, `x` goes before it. */
  lemma InsertShift(s: seq<Task>, j: nat, x: Task, order: SortBy)
    requires 0 < j <= |s| && Compare(s[j - 1], x, order) > 0
    ensures Insert(s[..j], x, order) + s[j..] == Insert(s[..j - 1], x, order) + s[j - 1..]
  {
    assert s[..j][..j - 1] == s[..j - 1];
    assert s[j - 1..] == [s[j - 1]] + s[j..];
  }

  /** ... and once it does not, `x` goes right after `s[..j]`. */
  lemma InsertStop(s: seq<Task>, j: nat, x: Task, order: SortBy)
    requires j <= |s| && (j == 0 || Compare(s[j - 1], x, order) <= 0)
    ensures Insert(s[..j], x, order) == s[..j] + [x]
  {
  }

  lemma {:induction false} InsertPermutes(sorted: seq<Task>, x: Task, order: SortBy)
    ensures multiset(Insert(sorted, x, order)) == multiset(sorted) + multiset{x}
    decreases |sorted|
  {
    if sorted != [] {
      var init, last := sorted[..|sorted| - 1], sorted[|sorted| - 1];
      assert sorted == init + [last];
      if Compare(last, x, order) > 0 {
        InsertPermutes(init, x, order);
      }
    }
  }

  /** Sorting only reorders: the result is a permutation of the input. */
  lemma {:induction false} SortPermutes(tasks: seq<Task>, order: SortBy)
    ensures multiset(Sort(tasks, order)) == multiset(tasks)
  {
    if tasks != [] {
      var init, last := tasks[..|tasks| - 1], tasks[|tasks| - 1];
      assert tasks == init + [last];
      SortPermutes(init, order);
      InsertPermutes(Sort(init, order), last, order);
    }
  }

  /** Every task has a sort key: always so for the date orders, and for
      `Priority` when every label is `High`, `Med` or `Low`. */
  predicate Keyed(tasks: seq<Task>, order: SortBy) {
    forall i :: 0 <= i < |tasks| ==> Key(tasks[i], order).Some?
  }

  /** The key as a number, `0` standing in for an absent one. */
  function KeyVal(t: Task, order: SortBy): int {
    Key(t, order).GetOr(0)
  }

  /** Keys never decrease along the sequence. */
  predicate KeyOrdered(tasks: seq<Task>, order: SortBy) {
    forall i, j :: 0 <= i < j < |tasks| ==> KeyVal(tasks[i], order) <= KeyVal(tasks[j], order)
  }

  /** Every key in `tasks` is at most `b`. */
  predicate KeysAtMost(tasks: seq<Task>, order: SortBy, b: int) {
    forall i :: 0 <= i < |tasks| ==> KeyVal(tasks[i], order) <= b
  }

  lemma {:induction false} InsertAtMost(sorted: seq<Task>, x: Task, order: SortBy, b: int)
    requires KeysAtMost(sorted, order, b) && KeyVal(x, order) <= b
    ensures KeysAtMost(Insert(sorted, x, order), order, b)
    decreases |sorted|
  {
    if sorted != [] {
      var init, last := sorted[..|sorted| - 1], sorted[|sorted| - 1];
      if Compare(last, x, order) > 0 {
        InsertAtMost(init, x, order, b);
      }
    }
  }

  lemma AppendOrdered(r: seq<Task>, y: Task, order: SortBy)
    requires Keyed(r, order) && KeyOrdered(r, order) && Key(y, order).Some?
    requires KeysAtMost(r, order, KeyVal(y, order))
    ensures Keyed(r + [y], order) && KeyOrdered(r + [y], order)
  {
  }

  lemma {:induction false} InsertOrdered(sorted: seq<Task>, x: Task, order: SortBy)
    requires Keyed(sorted, order) && KeyOrdered(sorted, order) && Key(x, order).Some?
    ensures Keyed(Insert(sorted, x, order), order) && KeyOrdered(Insert(sorted, x, order), order)
    decreases |sorted|
  {
    if sorted != [] {
      var init, last := sorted[..|sorted| - 1], sorted[|sorted| - 1];
      if Compare(last, x, order) > 0 {
        InsertOrdered(init, x, order);
        InsertAtMost(init, x, order, KeyVal(last, order));
        AppendOrdered(Insert(init, x, order), last, order);
      } else {
        AppendOrdered(sorted, x, order);
      }
    }
  }

  /** The sorted sequence is ordered by key whenever every task has one. */
  lemma {:induction false} SortOrdered(tasks: seq<Task>, order: SortBy)
    requires Keyed(tasks, order)
    ensures Keyed(Sort(tasks, order), order) && KeyOrdered(Sort(tasks, order), order)
  {
    if tasks != [] {
      var init := tasks[..|tasks| - 1];
      SortOrdered(init, order);
      InsertOrdered(Sort(init, order), tasks[|tasks| - 1], order);
    }
  }

  /** `Newest` puts later due dates first. */
  lemma NewestIsNonIncreasing(tasks: seq<Task>)
    ensures forall i, j :: 0 <= i < j < |Sort(tasks, Newest)| ==>
              Sort(tasks, Newest)[i].dueDate >= Sort(tasks, Newest)[j].dueDate
  {
    SortOrdered(tasks, Newest);
  }

  /** `Oldest` puts earlier due dates first. */
  lemma OldestIsNonDecreasing(tasks: seq<Task>)
    ensures forall i, j :: 0 <= i < j < |Sort(tasks, Oldest)| ==>
              Sort(tasks, Oldest)[i].dueDate <= Sort(tasks, Oldest)[j].dueDate
  {
    SortOrdered(tasks, Oldest);
  }

  /** `Priority` puts higher ranks first, provided every label is one of the
      three the rank map knows. */
  lemma PriorityIsNonIncreasing(tasks: seq<Task>)
    requires forall i :: 0 <= i < |tasks| ==> tasks[i].priority in {"High", "Med", "Low"}
    ensures forall i, j :: 0 <= i < j < |Sort(tasks, Priority)| ==>
              Rank(Sort(tasks, Priority)[i].priority).GetOr(0) >= Rank(Sort(tasks, Priority)[j].priority).GetOr(0)
  {
    SortOrdered(tasks, Priority);
  }

  /** A label outside the rank map compares as equal to every task, in both
      argument positions. */
  lemma UnrankedComparesEqual(a: Task, b: Task)
    requires Rank(a.priority).None?
    ensures Compare(a, b, Priority) == 0 && Compare(b, a, Priority) == 0
  {
  }

  /** The tasks whose key is `k`, in order. */
  function WithKey(tasks: seq<Task>, order: SortBy, k: Option<int>): (r: seq<Task>)
    ensures |r| <= |tasks|
  {
    if tasks == [] then []
    else
      var last := tasks[|tasks| - 1];
      WithKey(tasks[..|tasks| - 1], order, k) + (if Key(last, order) == k then [last] else [])
  }

  lemma WithKeySnoc(tasks: seq<Task>, y: Task, order: SortBy, k: Option<int>)
    ensures WithKey(tasks + [y], order, k) == WithKey(tasks, order, k) + (if Key(y, order) == k then [y] else [])
  {
    assert (tasks + [y])[..|tasks|] == tasks;
  }

  /** The tasks with key `k` that `x` alone contributes. */
  function Picked(x: Task, order: SortBy, k: Option<int>): seq<Task> {
    if Key(x, order) == k then [x] else []
  }

  /** When `x` moves left past `last`, the two never share a key. */
  lemma ShiftedKeysDiffer(last: Task, x: Task, order: SortBy, k: Option<int>)
    requires Compare(last, x, order) > 0
    ensures Picked(last, order, k) == [] || Picked(x, order, k) == []
  {
  }

  /** Moving `x` past a `last` of another key keeps each key's subsequence. */
  lemma SwapPast(init: seq<Task>, ins: seq<Task>, last: Task, x: Task, order: SortBy, k: Option<int>)
    requires Picked(last, order, k) == [] || Picked(x, order, k) == []
    requires WithKey(ins, order, k) == WithKey(init, order, k) + Picked(x, order, k)
    ensures WithKey(ins + [last], order, k) == WithKey(init + [last], order, k) + Picked(x, order, k)
  {
    WithKeySnoc(ins, last, order, k);
    WithKeySnoc(init, last, order, k);
  }

  lemma {:induction false} InsertStable(sorted: seq<Task>, x: Task, order: SortBy, k: Option<int>)
    ensures WithKey(Insert(sorted, x, order), order, k) == WithKey(sorted, order, k) + Picked(x, order, k)
    decreases |sorted|
  {
    if sorted == [] {
      WithKeySnoc([], x, order, k);
      assert [] + [x] == [x];
    } else {
      var init, last := sorted[..|sorted| - 1], sorted[|sorted| - 1];
      assert sorted == init + [last];
      if Compare(last, x, order) > 0 {
        ShiftedKeysDiffer(last, x, order, k);
        InsertStable(init, x, order, k);
        SwapPast(init, Insert(init, x, order), last, x, order, k);
      } else {
        WithKeySnoc(sorted, x, order, k);
      }
    }
  }

  /** Stability: the tasks that share a key (or that share having none) keep
      their original relative order. */
  lemma {:induction false} SortIsStable(tasks: seq<Task>, order: SortBy, k: Option<int>)
    ensures WithKey(Sort(tasks, order), order, k) == WithKey(tasks, order, k)
  {
    if tasks != [] {
      var init := tasks[..|tasks| - 1];
      SortIsStable(init, order, k);
      InsertStable(Sort(init, order), tasks[|tasks| - 1], order, k);
    }
  }

  /** Dropping the last task keeps a sequence keyed and in key order. */
  lemma OrderedInit(tasks: seq<Task>, order: SortBy)
    requires tasks != [] && Keyed(tasks, order) && KeyOrdered(tasks, order)
    ensures Keyed(tasks[..|tasks| - 1], order) && KeyOrdered(tasks[..|tasks| - 1], order)
  {
  }

  /** In a keyed sequence in key order, the comparator does not swap the last
      two tasks. */
  lemma LastTwoNotSwapped(tasks: seq<Task>, order: SortBy)
    requires |tasks| >= 2 && Keyed(tasks, order) && KeyOrdered(tasks, order)
    ensures Compare(tasks[|tasks| - 2], tasks[|tasks| - 1], order) <= 0
  {
  }

  /** A sequence already ordered by key is left as it is. */
  lemma {:induction false} SortOfOrdered(tasks: seq<Task>, order: SortBy)
    requires Keyed(tasks, order) && KeyOrdered(tasks, order)
    ensures Sort(tasks, order) == tasks
  {
    if tasks != [] {
      var init, last := tasks[..|tasks| - 1], tasks[|tasks| - 1];
      OrderedInit(tasks, order);
      SortOfOrdered(init, order);
      if |tasks| >= 2 {
        LastTwoNotSwapped(tasks, order);
        assert init[|init| - 1] == tasks[|tasks| - 2];
      }
      InsertStop(init, |init|, last, order);
      assert init[..|init|] == init && init + [last] == tasks;
    }
  }

  /** What `filteredAndSortedTasks` returns: the filtered tasks, sorted. */
  function View(tasks: seq<Task>, filter: Filter, order: SortBy): (r: seq<Task>)
    ensures multiset(r) == multiset(Filtered(tasks, filter))
  {
    SortPermutes(Filtered(tasks, filter), order);
    Sort(Filtered(tasks, filter), order)
  }

  /** Projecting an already projected list again changes nothing, whenever
      every task has a sort key. */
  lemma ViewIdempotent(tasks: seq<Task>, filter: Filter, order: SortBy)
    requires Keyed(tasks, order)
    ensures View(View(tasks, filter, order), filter, order) == View(tasks, filter, order)
  {
    var f := Filtered(tasks, filter);
    assert Keyed(f, order) by {
      forall i | 0 <= i < |f| ensures Key(f[i], order).Some? {
        assert f[i] in tasks;
      }
    }
    var v := Sort(f, order);
    SortOrdered(f, order);
    SortPermutes(f, order);
    match filter
    case All =>
      SortOfOrdered(v, order);
    case Completed =>
      assert Filtered(v, filter) == v by {
        assert forall t :: t in v ==> t.completed by {
          forall t | t in v ensures t.completed {
            assert t in multiset(v);
          }
        }
        SelectAllMatch(v, true);
      }
      SortOfOrdered(v, order);
    case Pending =>
      assert Filtered(v, filter) == v by {
        assert forall t :: t in v ==> !t.completed by {
          forall t | t in v ensures !t.completed {
            assert t in multiset(v);
          }
        }
        SelectAllMatch(v, false);
      }
      SortOfOrdered(v, order);
  }

  /** Selection keeps a list whose every task already has the flag. */
  lemma {:induction false} SelectAllMatch(tasks: seq<Task>, done: bool)
    requires forall t :: t in tasks ==> t.completed == done
    ensures Select(tasks, done) == tasks
  {
    if tasks != [] {
      SelectAllMatch(tasks[1..], done);
      assert tasks == [tasks[0]] + tasks[1..];
    }
  }

  // ----------------------------------------------------------------- stats

  datatype Stats = Stats(total: nat, completed: nat, pending: int)

  /** `getStats`: the counters over the whole, unfiltered list. */
  function GetStats(tasks: seq<Task>): (s: Stats)
    ensures s.total == |tasks|
    ensures s.completed == |Filtered(tasks, Completed)|
    ensures s.pending == |Filtered(tasks, Pending)|
    ensures s.completed + s.pending == s.total
  {
    SelectPartition(tasks);
    var total := |tasks|;
    var completed := |Select(tasks, true)|;
    Stats(total, completed, total - completed)
  }

  // ---------------------------------------------------------- list updates

  /** `[...prevTasks, newTask]` after a create. */
  function Appended(tasks: seq<Task>, newTask: Task): (r: seq<Task>)
    ensures |r| == |tasks| + 1 && r[..|tasks|] == tasks && r[|tasks|] == newTask
  {
    tasks + [newTask]
  }

  /** A create adds one to the total and, when the new task is completed, to
      the completed counter. */
  lemma StatsAfterCreate(tasks: seq<Task>, newTask: Task)
    ensures GetStats(Appended(tasks, newTask)).total == GetStats(tasks).total + 1
    ensures GetStats(Appended(tasks, newTask)).completed ==
              GetStats(tasks).completed + (if newTask.completed then 1 else 0)
  {
    SelectAppend(tasks, [newTask], true);
    assert [newTask][1..] == [];
  }

  /** `tasks.filter(task => task.id !== taskId)` after a delete. */
  function RemoveById(tasks: seq<Task>, taskId: string): (r: seq<Task>)
    ensures |r| <= |tasks|
    ensures forall t :: t in r <==> t in tasks && t.id != taskId
  {
    if tasks == [] then []
    else (if tasks[0].id != taskId then [tasks[0]] else []) + RemoveById(tasks[1..], taskId)
  }

  /** Removal keeps the other tasks in order: it distributes over
      concatenation. */
  lemma {:induction false} RemoveByIdAppend(a: seq<Task>, b: seq<Task>, taskId: string)
    ensures RemoveById(a + b, taskId) == RemoveById(a, taskId) + RemoveById(b, taskId)
  {
    if a != [] {
      assert (a + b)[0] == a[0] && (a + b)[1..] == a[1..] + b;
      RemoveByIdAppend(a[1..], b, taskId);
    } else {
      assert a + b == b;
    }
  }

  /** Deleting an id that no task carries leaves the list as it was. */
  lemma {:induction false} RemoveAbsentId(tasks: seq<Task>, taskId: string)
    requires forall t :: t in tasks ==> t.id != taskId
    ensures RemoveById(tasks, taskId) == tasks
  {
    if tasks != [] {
      RemoveAbsentId(tasks[1..], taskId);
      assert tasks == [tasks[0]] + tasks[1..];
    }
  }

  /** `tasks.map(task => task.id === taskId ? updated : task)` after a toggle. */
  function ReplaceById(tasks: seq<Task>, taskId: string, updated: Task): (r: seq<Task>)
    ensures |r| == |tasks|
    ensures forall i :: 0 <= i < |tasks| && tasks[i].id != taskId ==> r[i] == tasks[i]
    ensures forall i :: 0 <= i < |tasks| && tasks[i].id == taskId ==> r[i] == updated
  {
    seq(|tasks|, i requires 0 <= i < |tasks| => if tasks[i].id == taskId then updated else tasks[i])
  }

  /** The fields an edit carries; an absent field leaves the task's own. */
  datatype Patch = Patch(
    id: Option<string>,
    title: Option<string>,
    description: Option<string>,
    completed: Option<bool>,
    priority: Option<string>,
    dueDate: Option<int>,
    userId: Option<string>)

  /** `{...task, ...patch}`: every field the patch carries wins. */
  function Merge(t: Task, p: Patch): (r: Task)
    ensures r.id == p.id.GetOr(t.id) && r.title == p.title.GetOr(t.title)
    ensures r.description == p.description.GetOr(t.description)
    ensures r.completed == p.completed.GetOr(t.completed)
    ensures r.priority == p.priority.GetOr(t.priority)
    ensures r.dueDate == p.dueDate.GetOr(t.dueDate) && r.userId == p.userId.GetOr(t.userId)
  {
    Task(p.id.GetOr(t.id), p.title.GetOr(t.title), p.description.GetOr(t.description),
         p.completed.GetOr(t.completed), p.priority.GetOr(t.priority),
         p.dueDate.GetOr(t.dueDate), p.userId.GetOr(t.userId))
  }

  /** Merging the same edit twice is merging it once, and an empty edit
      changes nothing. */
  lemma MergeLaws(t: Task, p: Patch)
    ensures Merge(Merge(t, p), p) == Merge(t, p)
    ensures Merge(t, Patch(None, None, None, None, None, None, None)) == t
  {
  }

  /** `tasks.map(task => task.id === taskId ? {...task, ...patch} : task)`
      after an edit. */
  function MergeById(tasks: seq<Task>, taskId: string, p: Patch): (r: seq<Task>)
    ensures |r| == |tasks|
    ensures forall i :: 0 <= i < |tasks| && tasks[i].id != taskId ==> r[i] == tasks[i]
    ensures forall i :: 0 <= i < |tasks| && tasks[i].id == taskId ==> r[i] == Merge(tasks[i], p)
  {
    seq(|tasks|, i requires 0 <= i < |tasks| => if tasks[i].id == taskId then Merge(tasks[i], p) else tasks[i])
  }

  /** A toggle that keeps the id touches only what a delete of that id would
      remove: deleting afterwards gives the same list as deleting before. */
  lemma {:induction false} ReplaceThenRemove(tasks: seq<Task>, taskId: string, updated: Task)
    requires updated.id == taskId
    ensures RemoveById(ReplaceById(tasks, taskId, updated), taskId) == RemoveById(tasks, taskId)
  {
    if tasks != [] {
      ReplaceThenRemove(tasks[1..], taskId, updated);
      assert ReplaceById(tasks, taskId, updated)[1..] == ReplaceById(tasks[1..], taskId, updated);
    }
  }

  /** The same holds for an edit that does not change the id. */
  lemma {:induction false} MergeThenRemove(tasks: seq<Task>, taskId: string, p: Patch)
    requires p.id == None || p.id == Some(taskId)
    ensures RemoveById(MergeById(tasks, taskId, p), taskId) == RemoveById(tasks, taskId)
  {
    if tasks != [] {
      MergeThenRemove(tasks[1..], taskId, p);
      assert MergeById(tasks, taskId, p)[1..] == MergeById(tasks[1..], taskId, p);
    }
  }
}

=== FILE: wrappers.dfy ===
/** The optional value used throughout the model: `None` stands for JavaScript's
    `null` / `undefined` where the source returns or stores "nothing". */
module Wrappers {

  datatype Option<+T> = None | Some(value: T) {

    /** The value, or `default` when there is none. */
    function GetOr(default: T): T {
      match this
      case Some(v) => v
      case None => default
    }
  }
}
